=== FILE: README.md ===
# Gatewayz dashboard client core, in Dafny

This project models the logic of the Gatewayz dashboard's client. It covers
three pieces:

- **The REST client** (`src/lib/api.ts`). `ApiClient.request` builds the URL
  and headers. `requestWithRetry` runs one fetch per attempt and turns a
  non-2xx response into an `ApiError`. It retries what `shouldRetry` accepts,
  with a linear backoff and at most `retryAttempts` fetches, and maps the
  final failure to an `ApiError`. The file also holds `handleApiError`,
  `isNetworkError`, `isAuthError` and the resource methods (`getModels`,
  `deleteApiKey`, `chatCompletion`, ...).
- **Model reconciliation** (`src/hooks/useModelData.ts`). It covers the
  category and provider classifiers, the token and value estimates, the
  organisation taken from the model id, the fallback to the static list,
  the chart-series choice, the category filter with its top-20 cut, and the
  combined loading and error flags.
- **The credential and fetch-state machines** (`src/contexts/ApiContext.tsx`,
  `src/hooks/use-api.ts`). These are the key in React state, in
  `localStorage` and in the shared client; `setApiKey`, `clearAuth`,
  `refreshUserData` and the mount effect; and the loading/data/error life
  cycle of `useApi` and `useApiMutation`.

Modules, one per concern:

| module | models |
|---|---|
| `Wrappers` | `null`/`undefined` as `Option`, settled promises as `Result` |
| `Json` | parsed JSON values and JavaScript truthiness (`x \|\| null`) |
| `Text` | `toLowerCase` restricted to ASCII letters, `includes`, `split('/')[0]`, integer rendering in template literals |
| `ApiErrors` | `ApiError`, thrown values, `handleApiError`, `isNetworkError`, `isAuthError` |
| `Retry` | one fetch attempt, `shouldRetry`, the final error mapping, `requestWithRetry` and an equivalent loop |
| `Client` | the client's key, `request`'s headers and URL, and the resource methods' routes |
| `ModelData` | `useModelData` |
| `AuthContext` | `ApiProvider`'s state and transitions |
| `FetchHooks` | `useApi` and `useApiMutation` |

How the effects are modelled:

- **Transport.** The network is a script of outcomes. The fetch made on
  attempt `k` settles with `script[k - 1]`, which is one of: a response
  (status and body, the body parsed or not), an abort, or a network
  rejection. `RequestWithRetry` requires the script to be long enough for
  every fetch the bound allows.
- **Waits.** They are recorded in a trace next to the attempt indices; they
  are never slept.
- **Configuration.** It is a `Config` parameter. `Retry.Default` holds the
  shipped values: 3 attempts, a 1000 ms base delay and a 30000 ms timeout.
- **Randomness.** The random `change` and `positionChange` fields come from
  `Math.random()`. They are computed from draws in [0, 1) passed in as a
  function, so the lemmas can state which fields do not depend on them.
- **React state.** `localStorage`, the shared client and React state are
  fields of immutable records. Each callback is a function from state to
  state.

Some behaviours of the code are easy to misread; the model follows the
code:

- **`null` error body.** A non-2xx response whose error body parses to
  `null` does not raise an `ApiError`: reading `errorData.message` throws a
  TypeError. That error is retried like a network failure and surfaces with
  status 0 (`Retry.ErrorFromResponse`, `Retry.SurfacedAuthError`).
- **HTTP 408.** A server response with status 408 is an `ApiError` that
  `shouldRetry` rejects, so it is final. Of the two, only an aborted fetch is retried;
  it becomes status 408 only after the last attempt.
- **Empty array.** An empty array from `/models` is truthy, so it replaces
  the static list with an empty one instead of falling back to it.
- **Where 401 clears the key.** Authentication is cleared only by
  `refreshUserData` when it gets a 401. A 401 seen by `useApi` or
  `useApiMutation` only sets the error text.

## Model

| member | source | states |
|---|---|---|
| `Retry.RequestWithRetry` | src/lib/api.ts:56-104 | the attempts made are consecutive from the starting index and never go past the bound `retryAttempts`; every attempt but the last failed with an error `shouldRetry` accepts while below the bound; the last one settles the result (its data, or its error mapped to the final `ApiError`); the wait before each retry is `retryDelay` times the failed attempt's index, and there is no wait after the last attempt |
| `Retry.RetryLoop` | src/lib/api.ts:56-104 | an explicit bounded loop with an attempt counter makes exactly the same fetches, waits and result as the recursive retry |
| `Retry.TotalDelay` | src/lib/api.ts:86-88 | over a request that made `n` fetches, the waits add up to `retryDelay * n * (n - 1) / 2` |
| `Retry.LinearWaitsSum` | src/lib/api.ts:87 | waits of `d * a, d * (a + 1), ...` add up to the arithmetic-series total |
| `Retry.ConsecutiveFailures` | src/lib/api.ts:84-89 | after `n` retryable failures in a row, the request returns fetch `n + 1`'s data if `n` is below the bound; otherwise it gives up after exactly `retryAttempts` fetches with the last fetch's error |
| `Retry.DefaultSchedule` | src/lib/api.ts:86-88 | with the shipped configuration, a request makes at most 3 fetches (attempts 1, 2, 3) and waits 1000 ms and then 2000 ms |
| `Retry.ClientErrorSingleFetch` | src/lib/api.ts:106-113 | a 4xx `ApiError` other than 429 on the first fetch ends the request with that same error, after one fetch and no wait |
| `Retry.UnauthorizedIsFinal` | src/lib/api.ts:73-79 | an HTTP 401 response whose body is not `null` surfaces as an authentication error after one fetch and no wait |
| `Retry.TimeoutsExhaustRetries` | src/lib/api.ts:95-97 | three aborts with the shipped configuration end in `ApiError('Request timeout', 408)` after waits of 1000 and 2000 ms |
| `Retry.SurfacedNetworkError` | src/lib/api.ts:73-102 | a failed request surfaces a network error (status 0) exactly when its last fetch was rejected before a response, was a 2xx response with an unparseable body, or was a non-2xx response whose body parsed to `null` or whose status was 0 |
| `Retry.SurfacedAuthError` | src/lib/api.ts:91-93 | a failed request surfaces an authentication error exactly when its last fetch got a 401 response whose body is not `null` |
| `Retry.ShouldRetryClasses` | src/lib/api.ts:106-113 | 4xx `ApiError`s other than 429 are never retried; 5xx and 429 always are; every error that is not an `ApiError` always is |
| `Retry.RetriedExactly` | src/lib/api.ts:66-87 | below the attempt bound, a fetch is followed by a retry exactly when it was rejected before a response, was aborted, was a 2xx response whose body does not parse, or was a non-2xx response that is 5xx, 429 or has a `null` error body |
| `Retry.FinalError` | src/lib/api.ts:91-102 | an `ApiError` is rethrown unchanged; an abort becomes `ApiError('Request timeout', 408)`; any other `Error` becomes status 0 with its own message; a thrown value that is not an `Error` becomes status 0 "Network error"; no code is set on the mapped errors |
| `Retry.Attempt` | src/lib/api.ts:66-83 | an attempt succeeds exactly when the response is 2xx and its body parses, and then it returns that body; a non-2xx response fails with the error built from its body; an abort fails with an AbortError; a network rejection fails with a TypeError carrying its message; a 2xx body that does not parse fails with a SyntaxError carrying the parser's message |
| `Retry.ErrorFromResponse` | src/lib/api.ts:73-79 | a non-2xx response raises an `ApiError` with the response's status and the body's `code`, unless the body parses to `null`; then a TypeError (and only a TypeError) is raised instead; a non-empty string `message` becomes the error message, and an absent or falsy one gives "HTTP <status>" |
| `Retry.FallbackMessageNamesStatus` | src/lib/api.ts:76 | the fallback message is "HTTP " followed by the status in decimal, and the status can be read back from it |
| `ApiErrors.HandleApiError` | src/lib/api.ts:221-229 | an `ApiError` or any other `Error` shows its own message; anything else shows "An unexpected error occurred" |
| `ApiErrors.ErrorClassesDisjoint` | src/lib/api.ts:231-237 | nothing is both a network error (status 0) and an authentication error (status 401), and an error that is not an `ApiError` is neither |
| `Client.ConfiguredBaseUrl` | src/lib/config.ts:9 | the base URL is the environment's `NEXT_PUBLIC_API_URL` when set and non-empty, otherwise the production URL; it is never empty |
| `Client.NewClient` | src/lib/api.ts:22-28 | a new client has its base URL and no key |
| `Client.SetApiKey` | src/lib/api.ts:30-32 | the client stores the key it is given, even the empty string, which counts as no key |
| `Client.Request` | src/lib/api.ts:34-54 | the URL is the base URL followed by the endpoint; `Content-Type` is `application/json` unless the caller's headers override it; other caller headers are kept; `Authorization: Bearer <key>` is present when the key is non-empty and then overrides the caller's; with no key, `Authorization` is present only if the caller gave one |
| `Client.RouteOf` | src/lib/api.ts:119-202 | every resource method passes no headers and a path starting with "/"; it leaves the method unset (so GET) exactly when it sends no body and is not `deleteApiKey` |
| `Client.RecogniseEndpointRequest` | src/lib/api.ts:119-202 | from a resource method's request (URL, method and body) one can recover the method and all its arguments, including `deleteApiKey`'s key id |
| `Client.EndpointRequestInjective` | src/lib/api.ts:119-202 | two different resource calls never send the same request |
| `Client.EndpointHeaders` | src/lib/api.ts:40-47 | a resource call's headers are exactly the JSON content type, plus the Bearer authorization when the key is non-empty |
| `Json.Field` | src/lib/api.ts:76-78 | reading the error body's `message` or `code` gives a value only for an object that has that own key, and undefined for any other non-null value; inherited and built-in properties are not modelled |
| `Json.OrNull` | src/hooks/use-api.ts:29 | `x \|\| null` keeps a truthy value and turns anything falsy or absent into `null` |
| `ModelData.FirstMatchWins` | src/hooks/useModelData.ts:12-31 | the reference first-match classifier returns the outcome of the first rule that has a keyword in the text, or the default when no rule matches |
| `ModelData.CategoryIsFirstMatch` | src/hooks/useModelData.ts:12-21 | on the lower-cased name, the category chain equals the first-match classification under code/coder, vision/image, multimodal/image, audio/speech, embedding, research/agent, with `Language` as the default |
| `ModelData.ProviderIsFirstMatch` | src/hooks/useModelData.ts:23-31 | on the lower-cased id, the provider chain equals the first-match classification under openai, google/gemini, anthropic/claude, meta/llama, mistral, with `Other` as the default |
| `ModelData.CoderImpliesCode` | src/hooks/useModelData.ts:14 | every name containing "coder" contains "code", so the "coder" test never decides anything on its own |
| `ModelData.VisionOrImageUnlessCode` | src/hooks/useModelData.ts:14-15 | a name with "vision" or "image" is `Vision` unless it also has "code", and then it is `Code Models`; such a name never reaches the multimodal rule |
| `ModelData.MultimodalExactly` | src/hooks/useModelData.ts:14-16 | `Multimodal` is chosen if and only if the name has "multimodal" and none of "code", "vision" and "image" |
| `ModelData.ClassifiersIgnoreCase` | src/hooks/useModelData.ts:13-24 | inputs that are equal up to ASCII case get the same category and the same provider |
| `ModelData.TokensFor` | src/hooks/useModelData.ts:33-40 | the token estimate is always one of 5, 10, 15, 20 |
| `ModelData.TokensMonotone` | src/hooks/useModelData.ts:36-39 | the token estimate never decreases as the context length grows |
| `ModelData.TokensExamples` | src/hooks/useModelData.ts:35-39 | each step is taken strictly above its threshold: 1,000,001 gives 20 and 1,000,000 gives 15; 100,001 gives 15 and 100,000 gives 10; 10,001 gives 10 and 10,000 gives 5; a missing or zero length gives 5; with `TokensMonotone` this fixes the estimate for every length |
| `ModelData.AveragePrice` | src/hooks/useModelData.ts:44-46 | the average is NaN exactly when a present price is NaN; otherwise twice the average is the prompt price plus the completion price, a missing price (or missing pricing) reading as 0 |
| `ModelData.ValueFor` | src/hooks/useModelData.ts:48-51 | the value is one of the four buckets, and a NaN average gets `$10M+` |
| `ModelData.ValueCountsThresholds` | src/hooks/useModelData.ts:48-51 | a numeric average's bucket ranks as high as the number of the thresholds 0.01, 0.001 and 0.0001 it strictly exceeds (`$1B+` above 0.01 down to `$10M+` at or below 0.0001) |
| `ModelData.ValueOf` | src/hooks/useModelData.ts:42-52 | a model without pricing gets `$10M+` |
| `ModelData.ValueMonotone` | src/hooks/useModelData.ts:48-51 | a higher average price never gets a lower bucket |
| `ModelData.OrganizationOf` | src/hooks/useModelData.ts:72 | the organisation is never empty and contains no "/"; it is "Unknown" exactly when the id's first segment is empty (or is itself "Unknown"); otherwise it is the id's prefix that ends at the first "/" or at the end of the id |
| `ModelData.OrganizationOfQualifiedId` | src/hooks/useModelData.ts:72 | an id `org/rest` with a non-empty `org` that has no "/" gets `org` as its organisation |
| `Text.FirstSegment` | src/hooks/useModelData.ts:72 | `split('/')[0]` is a prefix of the text, has no "/", and ends at the first "/" or at the end of the text |
| `Text.FirstSegmentUnique` | src/hooks/useModelData.ts:72 | the first segment is the only such prefix |
| `ModelData.Reconcile` | src/hooks/useModelData.ts:70-79 | each row keeps the record's name and gets the classifiers' category and provider, the estimates and the organisation; `change` lies in [-10, 10) and `positionChange` in -3..2 |
| `ModelData.ModelsData` | src/hooks/useModelData.ts:66-82 | when the hook holds an array and is not loading, the output has the input's length and order, with row `i` built from record `i`; otherwise it is the static list unchanged |
| `ModelData.ModelsDataDeterministic` | src/hooks/useModelData.ts:70-79 | two reconciliations of the same input agree on every field except the random ones |
| `ModelData.EmptyArrayReplacesStatic` | src/hooks/useModelData.ts:67 | an empty API array gives an empty list; no data, or still loading, gives the static list |
| `ModelData.ChartDataIdentifiesRange` | src/hooks/useModelData.ts:84-94 | with three distinct series, two ranges show the same chart if and only if they are the same range |
| `ModelData.FilterCategory` | src/hooks/useModelData.ts:99-101 | the filter keeps exactly the elements of the selected category, and everything when 'All' is selected |
| `ModelData.FilterCategoryAppend` | src/hooks/useModelData.ts:99-101 | the filter keeps order and multiplicity: it distributes over concatenation, and keeps a single row exactly when that row is selected |
| `ModelData.FilteredModels` | src/hooks/useModelData.ts:96-112 | at most 20 models, all of the selected category, all taken from the base list (the time-adjusted list in the browser, the reconciled one on the server); they are a prefix of the filtered list, and all of it when it has fewer than 20 |
| `ModelData.HookFlags` | src/hooks/useModelData.ts:126-127 | over the models and providers hooks: starting either fetch makes the page load, and once both fetches have settled it stops; no error shows exactly when the models call succeeded (or failed with an empty text) and the providers call succeeded; a non-empty models error wins over a providers error |
| `AuthContext.Initial` | src/contexts/ApiContext.tsx:26-29 | the provider starts unauthenticated and loading, with no key, balance or profile (all `null`), storage as found, and a client on the given base URL that has no key |
| `AuthContext.Mount` | src/contexts/ApiContext.tsx:33-40 | a truthy stored key is copied into both the state and the client, and the client changes in nothing but its key; otherwise nothing changes but loading, which ends either way; the client keeps its base URL |
| `AuthContext.SetApiKey` | src/contexts/ApiContext.tsx:43-52 | the state takes the key as given; a non-empty key is written to storage and to the client; `null` or "" removes the stored key and gives the client ""; authenticated afterwards if and only if the key was non-empty |
| `AuthContext.ClearAuth` | src/contexts/ApiContext.tsx:55-59 | no key in state, storage or client, and no balance or profile; the client is changed only by being given the empty key, so it keeps its base URL |
| `AuthContext.CombineResponses` | src/contexts/ApiContext.tsx:66-69 | the joined requests succeed with both data if and only if both succeed; otherwise they fail with a failing request's `ApiError` |
| `AuthContext.RefreshUserData` | src/contexts/ApiContext.tsx:62-83 | with no key it changes nothing and sends nothing; otherwise it requests balance and profile; on success it stores both, on an authentication error it ends as `clearAuth` leaves it, and on any other error it leaves the state unchanged |
| `AuthContext.MountEstablishesConsistency` | src/contexts/ApiContext.tsx:33-40 | after mount the state key, the stored key and the client key agree, whatever storage held, and the user is authenticated if and only if a non-empty key was stored |
| `AuthContext.TransitionsPreserveConsistency` | src/contexts/ApiContext.tsx:43-83 | `setApiKey`, `clearAuth`, mount and `refreshUserData` all keep the three copies of the key in agreement |
| `AuthContext.AuthenticatedIffBearer` | src/contexts/ApiContext.tsx:92-95 | when the copies agree, `isAuthenticated` holds if and only if every request carries an authorization header, and that header is the Bearer of the state key |
| `AuthContext.ClearedKeySendsNoAuthorization` | src/contexts/ApiContext.tsx:49-51 | after `setApiKey(null)` or `setApiKey("")`, no request carries an authorization header |
| `AuthContext.AuthErrorSignsOut` | src/contexts/ApiContext.tsx:73-76 | after an authentication error in a refresh, the user is signed out, the next refresh sends nothing, and requests carry no authorization |
| `FetchHooks.BeginFetch` | src/hooks/use-api.ts:26-27 | starting a fetch sets loading, clears the error and keeps the data |
| `FetchHooks.SettleFetch` | src/hooks/use-api.ts:28-34 | on success the data becomes `response.data \|\| null`; on failure the error becomes the `handleApiError` text and the data is kept; loading ends either way |
| `FetchHooks.FetchData` | src/hooks/use-api.ts:24-35 | after a fetch, loading is false, and the error is unset if and only if the call succeeded; the data is truthy or `null` |
| `FetchHooks.FirstFetch` | src/hooks/use-api.ts:20-39 | the first fetch from the initial state shows the response's data (or `null`) with no error, or `null` data beside the `handleApiError` text; loading ends either way |
| `FetchHooks.DataSurvivesFailure` | src/hooks/use-api.ts:28-31 | a failed refetch keeps the previous data next to the new error |
| `FetchHooks.SuccessClearsError` | src/hooks/use-api.ts:26-29 | a successful refetch clears an earlier error |
| `FetchHooks.ClientOutcome` | src/lib/api.ts:82-83 | a client call resolves with `{ data }` exactly when the retry succeeded, and otherwise rejects with the final `ApiError` |
| `FetchHooks.UnauthorizedFetchShowsStatus` | src/hooks/use-api.ts:30-31 | a hook whose request got a 401 with an unparseable body shows "HTTP 401" after a single fetch and keeps its data |
| `FetchHooks.Mutate` | src/hooks/use-api.ts:84-96 | `mutate` resolves with `response.data \|\| null` on success and with `null` on failure, where it also records the error text; loading ends false |
| `FetchHooks.MutationResultTruthyOnlyOnSuccess` | src/hooks/use-api.ts:89-92 | a truthy mutation result means the call succeeded; a failure returns the same `null` as a success without data |
| `Text.ContainsIffOccurs` | src/hooks/useModelData.ts:14 | `includes` holds exactly when the keyword occurs at some index |
| `Text.DecimalRoundTrip` | src/lib/api.ts:76 | an integer rendered in decimal reads back as the same integer |
| `Text.DecimalInjective` | src/lib/api.ts:76 | distinct statuses render to distinct texts, so two fallback messages "HTTP <status>" differ whenever the statuses do |

## Left out

- The real `fetch`, `AbortController`, `setTimeout` and the race between
  the timer and the response (src/lib/api.ts:63-71) are not modelled. An
  aborted fetch is a scripted outcome, and `Config.timeout` is carried but
  not used.
- `delay` does not sleep. The requested milliseconds are recorded in the
  trace.
- A thrown value that is not an `Error` maps to "Network error"
  (`FinalError`). The scripted transport never produces one.
- Retry.ErrorFromResponse: a truthy `message` field in the error body that
  is not a string is turned into text by JavaScript. The model uses the
  "HTTP <status>" fallback for it instead.
- ModelData.AveragePrice: the sum, the halving and the threshold comparisons of `getModelValue` are exact real arithmetic, not rounded IEEE-754 doubles, and a price stands for the exact decimal value of its string. An average within a rounding step of 0.01, 0.001 or 0.0001 can therefore land in a different bucket: prompt "0.0039313" and completion "0.0160687" average to 0.010000000000000002 in doubles (`$1B+`) but to exactly 0.01 here (`$500M+`). Infinite prices (such as from "1e999") are not modelled.
- `parseFloat` of the price strings is not modelled. Prices arrive already
  parsed, as a number or NaN.
- Records whose `name` or `id` is not a string make the source throw. The
  model's records always hold strings. A non-numeric `context_length` is not
  modelled either.
- Text.Lower: lowers only ASCII letters, while JavaScript's `toLowerCase`
  follows Unicode. Names and ids with non-ASCII letters can therefore be
  classified differently: `"OPENAİ".toLowerCase()` contains "openai", so the
  source says OpenAI, but the model leaves the `İ` alone and says Other.
- Header names are compared exactly, not case-insensitively.
- `JSON.stringify` of request bodies is not modelled. Bodies are kept as
  JSON values.
- `deleteApiKey` puts the key id into the path without URL-encoding it. The
  model does the same and does not reason about URL syntax.
- The static `topModels` and the chart series from `@/lib/data` are
  parameters (that module is not part of this model). So are
  `adjustModelDataForTimeRange` and the `isClient` flag.
- `adjustedApps` (src/hooks/useModelData.ts:114-119) is left out. On the
  server, or without a time frame, it is the first 20 of the static
  `topApps`; otherwise it is whatever `adjustAppDataForTimeRange` returns.
  Both come from `@/lib/data`, which is not part of this model.
- The React effects are not modelled as triggers: the refresh when the key
  changes (src/contexts/ApiContext.tsx:86-90) and the fetch on mount
  (src/hooks/use-api.ts:37-39). The transitions they run are modelled, and a
  caller composes them.
- The toast, `console.log` and `useApiContext`'s missing-provider error are
  left out.
- The two concurrent requests of `refreshUserData` (`Promise.all`) are
  taken as one combined outcome. When both fail, the balance error is the
  one reported; the source reports whichever rejects first.
- `useApi`'s dependency list and the identity of `refetch` are left out.
- The pages and components (rankings, model and organisation pages, credit
  balance, key entry) are left out. They only present the data.

=== FILE: ApiErrors.dfy ===
/** The `ApiError` class of the client library and the helpers that classify
    whatever a failed call rejected with (`handleApiError`, `isNetworkError`,
    `isAuthError`). */
module ApiErrors {
  import opened Wrappers
  import opened Json

  /** `new ApiError(message, status, code)`. `code` is whatever the error body
      held under `code`, or undefined. */
  datatype ApiError = ApiError(message: string, status: int, code: Option<Json>)

  /** A value a rejected promise carries: an `ApiError`, another `Error`
      (with its `name`, such as "AbortError" or "TypeError"), or a thrown
      value that is not an `Error` at all. */
  datatype Thrown =
    | ApiErr(err: ApiError)
    | JsError(name: string, message: string)
    | NonError

  const UnexpectedErrorMessage := "An unexpected error occurred"

  /** `handleApiError`: the text a hook shows for a failure. Every `Error`,
      `ApiError` included, contributes its own message; anything else gets a
      fixed text. */
  function HandleApiError(t: Thrown): (r: string)
    ensures t.ApiErr? ==> r == t.err.message
    ensures t.JsError? ==> r == t.message
    ensures t.NonError? ==> r == UnexpectedErrorMessage
  {
    match t
    case ApiErr(e) => e.message
    case JsError(_, m) => m
    case NonError => UnexpectedErrorMessage
  }

  /** `isNetworkError`: an `ApiError` carrying status 0. */
  predicate IsNetworkError(t: Thrown) {
    t.ApiErr? && t.err.status == 0
  }

  /** `isAuthError`: an `ApiError` carrying status 401. */
  predicate IsAuthError(t: Thrown) {
    t.ApiErr? && t.err.status == 401
  }

  /** No failure is both a network error and an authentication error, and a
      plain `Error` is neither, whatever its message says. */
  lemma ErrorClassesDisjoint(t: Thrown)
    ensures !(IsNetworkError(t) && IsAuthError(t))
    ensures !t.ApiErr? ==> !IsNetworkError(t) && !IsAuthError(t)
  {
  }
}

=== FILE: AuthContext.dfy ===
/** The state `ApiProvider` keeps: the key in React state, the key in
    `localStorage`, the key inside the shared client, the user's balance and
    profile, and the loading flag; with its transitions. */
module AuthContext {
  import opened Wrappers
  import opened Json
  import opened ApiErrors
  import opened Client

  /** `storage` is the `gatewayz_api_key` entry of `localStorage`;
      `client` is the shared `apiClient`. */
  datatype AuthState = AuthState(
    apiKey: Option<string>,
    isLoading: bool,
    userBalance: Json,
    userProfile: Json,
    storage: Option<string>,
    client: ApiClient)

  /** A key is truthy: present and non-empty. */
  predicate KeyGiven(k: Option<string>) {
    k.Some? && k.value != ""
  }

  /** `isAuthenticated: !!apiKey`. */
  predicate IsAuthenticated(s: AuthState) {
    KeyGiven(s.apiKey)
  }

  /** The provider's first render: no key, loading, no user data, whatever
      is in storage, and a client that has never been given a key. */
  function Initial(storage: Option<string>, baseUrl: string): (s: AuthState)
    ensures !IsAuthenticated(s) && s.isLoading && !HasKey(s.client)
    ensures s.apiKey == None && s.userBalance == JNull && s.userProfile == JNull
    ensures s.storage == storage && s.client.baseUrl == baseUrl
  {
    AuthState(None, true, JNull, JNull, storage, NewClient(baseUrl))
  }

  /** The three copies of the key agree: the state key is truthy exactly when
      the client holds a non-empty key, and then the client and the storage
      hold that same key; with no truthy state key, storage holds none. */
  predicate KeyConsistent(s: AuthState) {
    && (IsAuthenticated(s) <==> HasKey(s.client))
    && (IsAuthenticated(s) ==> s.client.apiKey == s.apiKey && s.storage == s.apiKey)
    && (!IsAuthenticated(s) ==> !KeyGiven(s.storage))
  }

  /** The mount effect: a truthy stored key is copied into the state and the
      client; loading ends either way. */
  function Mount(s: AuthState): (r: AuthState)
    ensures !r.isLoading
    ensures KeyGiven(s.storage) ==> r.apiKey == s.storage && r.client.apiKey == s.storage
    ensures KeyGiven(s.storage) ==> r.client == Client.SetApiKey(s.client, s.storage.value)
    ensures r.client.baseUrl == s.client.baseUrl
    ensures !KeyGiven(s.storage) ==> r == s.(isLoading := false)
    ensures r.storage == s.storage && r.userBalance == s.userBalance && r.userProfile == s.userProfile
  {
    if KeyGiven(s.storage) then
      s.(apiKey := s.storage, client := Client.SetApiKey(s.client, s.storage.value), isLoading := false)
    else s.(isLoading := false)
  }

  /** `setApiKey(key)`: the state takes `key` as given; a truthy key is
      written to storage and the client, anything else removes the stored
      key and gives the client the empty key. */
  function SetApiKey(s: AuthState, key: Option<string>): (r: AuthState)
    ensures r.apiKey == key
    ensures KeyGiven(key) ==> r.storage == key && r.client.apiKey == key
    ensures !KeyGiven(key) ==> r.storage == None && r.client.apiKey == Some("")
    ensures IsAuthenticated(r) <==> KeyGiven(key)
    ensures r.isLoading == s.isLoading && r.userBalance == s.userBalance && r.userProfile == s.userProfile
    ensures r.client.baseUrl == s.client.baseUrl
  {
    if KeyGiven(key) then
      s.(apiKey := key, storage := key, client := Client.SetApiKey(s.client, key.value))
    else
      s.(apiKey := key, storage := None, client := Client.SetApiKey(s.client, ""))
  }

  /** `clearAuth`: no key anywhere, and no balance or profile. */
  function ClearAuth(s: AuthState): (r: AuthState)
    ensures r.apiKey == None && r.storage == None && !HasKey(r.client)
    ensures r.userBalance == JNull && r.userProfile == JNull
    ensures !IsAuthenticated(r) && KeyConsistent(r)
    ensures r.isLoading == s.isLoading
    ensures r.client == Client.SetApiKey(s.client, "") && r.client.baseUrl == s.client.baseUrl
  {
    SetApiKey(s, None).(userBalance := JNull, userProfile := JNull)
  }

  /** The combined settling of `Promise.all` over the balance and profile
      requests: both data, or the first failure (taken as the balance one
      when both fail). */
  function CombineResponses(balance: Result<Json, ApiError>, profile: Result<Json, ApiError>)
    : (r: Result<(Json, Json), Thrown>)
    ensures r.Success? <==> balance.Success? && profile.Success?
    ensures r.Success? ==> r.value == (balance.value, profile.value)
    ensures balance.Failure? ==> r == Failure(ApiErr(balance.error))
    ensures balance.Success? && profile.Failure? ==> r == Failure(ApiErr(profile.error))
  {
    match balance
    case Failure(e) => Failure(ApiErr(e))
    case Success(b) =>
      match profile
      case Failure(e) => Failure(ApiErr(e))
      case Success(p) => Success((b, p))
  }

  datatype Refreshed = Refreshed(state: AuthState, requests: seq<Endpoint>)

  /** `refreshUserData`, given how its two requests settle: without a
      truthy key it does nothing and sends nothing; otherwise it requests
      balance and profile, stores both on success, clears authentication on
      an authentication error and keeps the state on any other error. */
  function RefreshUserData(s: AuthState, outcome: Result<(Json, Json), Thrown>): (r: Refreshed)
    ensures !IsAuthenticated(s) ==> r == Refreshed(s, [])
    ensures IsAuthenticated(s) ==> r.requests == [UserBalance, UserProfile]
    ensures IsAuthenticated(s) && outcome.Success? ==>
      r.state == s.(userBalance := outcome.value.0, userProfile := outcome.value.1)
    ensures IsAuthenticated(s) && outcome.Failure? && IsAuthError(outcome.error) ==> r.state == ClearAuth(s)
    ensures outcome.Failure? && !IsAuthError(outcome.error) ==> r.state == s
  {
    if !IsAuthenticated(s) then Refreshed(s, [])
    else
      var state :=
        match outcome
        case Success((b, p)) => s.(userBalance := b, userProfile := p)
        case Failure(e) => if IsAuthError(e) then ClearAuth(s) else s;
      Refreshed(state, [UserBalance, UserProfile])
  }

  /** The mount effect leaves the three copies of the key in agreement,
      whatever storage held. */
  lemma MountEstablishesConsistency(storage: Option<string>, baseUrl: string)
    ensures KeyConsistent(Mount(Initial(storage, baseUrl)))
    ensures IsAuthenticated(Mount(Initial(storage, baseUrl))) <==> KeyGiven(storage)
  {
  }

  /** Every transition keeps the copies of the key in agreement. */
  lemma TransitionsPreserveConsistency(s: AuthState, key: Option<string>, outcome: Result<(Json, Json), Thrown>)
    requires KeyConsistent(s)
    ensures KeyConsistent(SetApiKey(s, key))
    ensures KeyConsistent(ClearAuth(s))
    ensures KeyConsistent(Mount(s))
    ensures KeyConsistent(RefreshUserData(s, outcome).state)
  {
  }

  /** When the copies agree, the provider reports itself authenticated
      exactly when every request the client makes carries the Bearer header
      of the state key. */
  lemma AuthenticatedIffBearer(s: AuthState, e: Endpoint)
    requires KeyConsistent(s)
    ensures IsAuthenticated(s) <==>
      "Authorization" in EndpointRequest(s.client, e).headers
    ensures IsAuthenticated(s) ==>
      EndpointRequest(s.client, e).headers["Authorization"] == "Bearer " + s.apiKey.value
  {
    EndpointHeaders(s.client, e);
  }

  /** After `setApiKey(null)` or `setApiKey("")`, no later request carries an
      authorization header. */
  lemma ClearedKeySendsNoAuthorization(s: AuthState, key: Option<string>, e: Endpoint)
    requires !KeyGiven(key)
    ensures "Authorization" !in EndpointRequest(SetApiKey(s, key).client, e).headers
  {
    EndpointHeaders(SetApiKey(s, key).client, e);
  }

  /** An authentication error while refreshing signs the user out: the next
      refresh sends nothing, and no request carries authorization. */
  lemma AuthErrorSignsOut(s: AuthState, e: Thrown, next: Result<(Json, Json), Thrown>, ep: Endpoint)
    requires IsAuthenticated(s) && IsAuthError(e)
    ensures var r := RefreshUserData(s, Failure(e)).state;
      !IsAuthenticated(r) && RefreshUserData(r, next) == Refreshed(r, [])
      && "Authorization" !in EndpointRequest(r.client, ep).headers
  {
    var r := RefreshUserData(s, Failure(e)).state;
    EndpointHeaders(r.client, ep);
  }
}

=== FILE: Client.dfy ===
/** The `ApiClient` facade: its stored key, the headers `request` adds, and
    the resource methods, each of which is a path, an HTTP method and an
    optional JSON body handed to `request` and so to `requestWithRetry`. */
module Client {
  import opened Wrappers
  import opened Json

  datatype Method = Get | Post | Put | Delete

  /** The `RequestInit` a resource method passes to `request`. An absent
      method means `fetch`'s default, GET. */
  datatype RequestOptions = RequestOptions(httpMethod: Option<Method>, headers: map<string, string>, body: Option<Json>)

  /** `{}`: the options of every read endpoint. */
  const NoOptions := RequestOptions(None, map[], None)

  /** The client's state: its base URL and the key last given to `setApiKey`
      (`null` until then). */
  datatype ApiClient = ApiClient(baseUrl: string, apiKey: Option<string>)

  const DefaultBaseUrl := "https://api.gatewayz.ai"

  /** `config.api.baseUrl`: the `NEXT_PUBLIC_API_URL` environment variable
      when it is set and non-empty, the production URL otherwise; so the
      shared client never has an empty base URL. */
  function ConfiguredBaseUrl(env: Option<string>): (r: string)
    ensures r != ""
    ensures env.Some? && env.value != "" ==> r == env.value
    ensures env.None? || env.value == "" ==> r == DefaultBaseUrl
  {
    if env.Some? && env.value != "" then env.value else DefaultBaseUrl
  }

  /** `new ApiClient(baseUrl)`: no key yet. */
  function NewClient(baseUrl: string): (c: ApiClient)
    ensures !HasKey(c) && c.baseUrl == baseUrl
  {
    ApiClient(baseUrl, None)
  }

  /** `this.apiKey` is truthy: present and not the empty string. */
  predicate HasKey(c: ApiClient) {
    c.apiKey.Some? && c.apiKey.value != ""
  }

  /** `setApiKey(key)`: replaces the stored key, the empty string included. */
  function SetApiKey(c: ApiClient, key: string): (r: ApiClient)
    ensures r.baseUrl == c.baseUrl && r.apiKey == Some(key)
    ensures HasKey(r) <==> key != ""
  {
    c.(apiKey := Some(key))
  }

  /** What `fetch` is called with. */
  datatype HttpRequest = HttpRequest(url: string, httpMethod: Method, headers: map<string, string>, body: Option<Json>)

  /** `request(endpoint, options)`: the URL is the base URL followed by the
      endpoint; the headers are a JSON content type overridden by the
      caller's headers, and then a Bearer authorization built from the
      stored key whenever that key is non-empty, overriding any the caller
      gave. */
  function Request(c: ApiClient, endpoint: string, options: RequestOptions): (r: HttpRequest)
    ensures r.url == c.baseUrl + endpoint
    ensures r.httpMethod == ValueOr(options.httpMethod, Get) && r.body == options.body
    ensures HasKey(c) ==>
      "Authorization" in r.headers && r.headers["Authorization"] == "Bearer " + c.apiKey.value
    ensures !HasKey(c) ==> ("Authorization" in r.headers <==> "Authorization" in options.headers)
    ensures "Content-Type" in r.headers
    ensures r.headers["Content-Type"] ==
      if "Content-Type" in options.headers then options.headers["Content-Type"] else "application/json"
    ensures forall h :: h in options.headers && (h != "Authorization" || !HasKey(c)) ==>
      h in r.headers && r.headers[h] == options.headers[h]
    ensures forall h :: h in r.headers ==> h in options.headers || h == "Content-Type" || h == "Authorization"
  {
    var headers := map["Content-Type" := "application/json"] + options.headers;
    var headers := if HasKey(c) then headers["Authorization" := "Bearer " + c.apiKey.value] else headers;
    HttpRequest(c.baseUrl + endpoint, ValueOr(options.httpMethod, Get), headers, options.body)
  }

  /** The resource methods of the client. Bodies are the JSON values the
      methods serialise with `JSON.stringify`. */
  datatype Endpoint =
    | Health
    | Models
    | ModelProviders
    | UserBalance
    | UserProfile
    | UpdateUserProfile(profile: Json)
    | UserMonitor
    | UserLimits
    | CreateApiKey(keyData: Json)
    | ApiKeys
    | DeleteApiKey(keyId: string)
    | ApiKeyUsage
    | ChatCompletion(chat: Json)
    | AddCredits(userId: string, amount: real)
    | SystemMonitor

  datatype Route = Route(path: string, options: RequestOptions)

  const ApiKeysPath := "/user/api-keys"
  const ApiKeyPrefix := "/user/api-keys/"

  /** The `{ userId, amount }` body of `addCredits`. */
  function CreditsBody(userId: string, amount: real): Json {
    JObj(map["userId" := JStr(userId), "amount" := JNum(amount)])
  }

  /** The path and options each resource method passes to `request`. */
  function RouteOf(e: Endpoint): (r: Route)
    ensures r.options.headers == map[]
    ensures |r.path| > 0 && r.path[0] == '/'
    ensures r.options.httpMethod.None? <==> r.options.body.None? && !e.DeleteApiKey?
  {
    match e
    case Health => Route("/health", NoOptions)
    case Models => Route("/models", NoOptions)
    case ModelProviders => Route("/models/providers", NoOptions)
    case UserBalance => Route("/user/balance", NoOptions)
    case UserProfile => Route("/user/profile", NoOptions)
    case UpdateUserProfile(p) => Route("/user/profile", RequestOptions(Some(Put), map[], Some(p)))
    case UserMonitor => Route("/user/monitor", NoOptions)
    case UserLimits => Route("/user/limit", NoOptions)
    case CreateApiKey(k) => Route(ApiKeysPath, RequestOptions(Some(Post), map[], Some(k)))
    case ApiKeys => Route(ApiKeysPath, NoOptions)
    case DeleteApiKey(id) => Route(ApiKeyPrefix + id, RequestOptions(Some(Delete), map[], None))
    case ApiKeyUsage => Route("/user/api-keys/usage", NoOptions)
    case ChatCompletion(c) => Route("/v1/chat/completions", RequestOptions(Some(Post), map[], Some(c)))
    case AddCredits(u, a) => Route("/admin/add_credits", RequestOptions(Some(Post), map[], Some(CreditsBody(u, a))))
    case SystemMonitor => Route("/admin/monitor", NoOptions)
  }

  /** The request a resource method makes on client `c`. */
  function EndpointRequest(c: ApiClient, e: Endpoint): HttpRequest {
    var route := RouteOf(e);
    Request(c, route.path, route.options)
  }

  /** Which resource method a request came from, read off its method, path
      and body: the inverse of `RouteOf`. */
  function Recognise(m: Method, path: string, body: Option<Json>): Option<Endpoint> {
    match m
    case Get =>
      if body.Some? then None
      else if path == "/health" then Some(Health)
      else if path == "/models" then Some(Models)
      else if path == "/models/providers" then Some(ModelProviders)
      else if path == "/user/balance" then Some(UserBalance)
      else if path == "/user/profile" then Some(UserProfile)
      else if path == "/user/monitor" then Some(UserMonitor)
      else if path == "/user/limit" then Some(UserLimits)
      else if path == ApiKeysPath then Some(ApiKeys)
      else if path == "/user/api-keys/usage" then Some(ApiKeyUsage)
      else if path == "/admin/monitor" then Some(SystemMonitor)
      else None
    case Put =>
      if path == "/user/profile" && body.Some? then Some(UpdateUserProfile(body.value)) else None
    case Post =>
      if body.None? then None
      else if path == ApiKeysPath then Some(CreateApiKey(body.value))
      else if path == "/v1/chat/completions" then Some(ChatCompletion(body.value))
      else if path == "/admin/add_credits" then
        (match body.value
         case JObj(f) =>
           if "userId" in f && f["userId"].JStr? && "amount" in f && f["amount"].JNum?
           then Some(AddCredits(f["userId"].s, f["amount"].n)) else None
         case _ => None)
      else None
    case Delete =>
      if body.None? && |ApiKeyPrefix| <= |path| && path[..|ApiKeyPrefix|] == ApiKeyPrefix
      then Some(DeleteApiKey(path[|ApiKeyPrefix|..]))
      else None
  }

  /** Recognises a request made on client `c`. */
  function RecogniseRequest(c: ApiClient, r: HttpRequest): Option<Endpoint> {
    if |c.baseUrl| <= |r.url| && r.url[..|c.baseUrl|] == c.baseUrl
    then Recognise(r.httpMethod, r.url[|c.baseUrl|..], r.body)
    else None
  }

  /** Every resource method's request identifies that method and its
      arguments, so no two resource calls send the same request. */
  lemma RecogniseEndpointRequest(c: ApiClient, e: Endpoint)
    ensures RecogniseRequest(c, EndpointRequest(c, e)) == Some(e)
  {
    var route := RouteOf(e);
    var r := EndpointRequest(c, e);
    assert r.url[..|c.baseUrl|] == c.baseUrl;
    assert r.url[|c.baseUrl|..] == route.path;
    RecogniseRoute(e);
  }

  /** `Recognise` inverts `RouteOf`, before the base URL is prepended. */
  lemma RecogniseRoute(e: Endpoint)
    ensures Recognise(ValueOr(RouteOf(e).options.httpMethod, Get), RouteOf(e).path, RouteOf(e).options.body) == Some(e)
  {
    if e.DeleteApiKey? {
      assert (ApiKeyPrefix + e.keyId)[..|ApiKeyPrefix|] == ApiKeyPrefix;
      assert (ApiKeyPrefix + e.keyId)[|ApiKeyPrefix|..] == e.keyId;
    }
  }

  /** Distinct resource calls make distinct requests. */
  lemma EndpointRequestInjective(c: ApiClient, e1: Endpoint, e2: Endpoint)
    requires EndpointRequest(c, e1) == EndpointRequest(c, e2)
    ensures e1 == e2
  {
    RecogniseEndpointRequest(c, e1);
    RecogniseEndpointRequest(c, e2);
  }

  /** The resource methods pass no headers of their own, so their requests
      carry exactly the JSON content type plus, when the key is non-empty,
      its Bearer authorization. */
  lemma EndpointHeaders(c: ApiClient, e: Endpoint)
    ensures EndpointRequest(c, e).headers ==
      if HasKey(c) then map["Content-Type" := "application/json", "Authorization" := "Bearer " + c.apiKey.value]
      else map["Content-Type" := "application/json"]
  {
  }
}

=== FILE: FetchHooks.dfy ===
/** The fetch-state life cycle of `useApi` and `useApiMutation`. A call's
    settling is given: the `data` of the response it resolved with (absent
    when the response has none), or what it rejected with. */
module FetchHooks {
  import opened Wrappers
  import opened Json
  import opened Text
  import opened ApiErrors
  import opened Retry

  /** The state `useApi` exposes. */
  datatype FetchState = FetchState(data: Json, loading: bool, error: Option<string>)

  /** The first render: no data, loading, no error. */
  const InitialFetch := FetchState(JNull, true, None)

  /** The fetch the mount effect starts: on success the hook shows the
      response's data (or null), on failure it shows null beside the
      `handleApiError` text; loading ends either way. */
  lemma FirstFetch(outcome: Result<Option<Json>, Thrown>)
    ensures outcome.Success? ==> FetchData(InitialFetch, outcome) == FetchState(OrNull(outcome.value), false, None)
    ensures outcome.Failure? ==>
      FetchData(InitialFetch, outcome) == FetchState(JNull, false, Some(HandleApiError(outcome.error)))
  {
  }

  /** The synchronous start of `fetchData`: loading, and the error cleared. */
  function BeginFetch(s: FetchState): (r: FetchState)
    ensures r.loading && r.error == None && r.data == s.data
  {
    s.(loading := true, error := None)
  }

  /** The rest of `fetchData` once the call settles: `response.data || null`
      on success, the `handleApiError` text on failure with the data kept;
      loading ends either way. */
  function SettleFetch(s: FetchState, outcome: Result<Option<Json>, Thrown>): (r: FetchState)
    ensures !r.loading
    ensures outcome.Success? ==> r.data == OrNull(outcome.value) && r.error == s.error
    ensures outcome.Failure? ==> r.data == s.data && r.error == Some(HandleApiError(outcome.error))
  {
    match outcome
    case Success(d) => s.(data := OrNull(d), loading := false)
    case Failure(e) => s.(error := Some(HandleApiError(e)), loading := false)
  }

  /** `fetchData` from start to settling. */
  function FetchData(s: FetchState, outcome: Result<Option<Json>, Thrown>): (r: FetchState)
    ensures !r.loading
    ensures r.error.None? <==> outcome.Success?
    ensures outcome.Success? ==> r.data == OrNull(outcome.value) && (Truthy(r.data) || r.data == JNull)
    ensures outcome.Failure? ==> r.data == s.data
  {
    SettleFetch(BeginFetch(s), outcome)
  }

  /** Data survives a failed refetch: after a success and then a failure the
      hook still shows the first call's data, beside the failure's message. */
  lemma DataSurvivesFailure(s: FetchState, d: Option<Json>, e: Thrown)
    ensures FetchData(FetchData(s, Success(d)), Failure(e)) == FetchState(OrNull(d), false, Some(HandleApiError(e)))
  {
  }

  /** A success after a failure clears the error. */
  lemma SuccessClearsError(s: FetchState, e: Thrown, d: Option<Json>)
    ensures FetchData(FetchData(s, Failure(e)), Success(d)) == FetchState(OrNull(d), false, None)
  {
  }

  /** How a client call settles for a hook: it resolves with `{ data }` or
      rejects with the `ApiError` that `requestWithRetry` threw. */
  function ClientOutcome(t: Trace): (r: Result<Option<Json>, Thrown>)
    ensures t.result.Success? <==> r.Success?
    ensures r.Success? ==> r.value == Some(t.result.value)
    ensures r.Failure? ==> r.error == ApiErr(t.result.error)
  {
    match t.result
    case Success(v) => Success(Some(v))
    case Failure(e) => Failure(ApiErr(e))
  }

  /** A hook whose request got HTTP 401 with an unparseable error body shows
      "HTTP 401" after a single fetch and keeps its data. */
  lemma UnauthorizedFetchShowsStatus(s: FetchState, cfg: Config, script: seq<FetchOutcome>, m: string)
    requires 1 <= |script| && cfg.retryAttempts <= |script|
    requires script[0] == Respond(401, Unparseable(m))
    ensures var t := RequestWithRetry(cfg, script, 1);
      |t.attempts| == 1 && FetchData(s, ClientOutcome(t)) == FetchState(s.data, false, Some("HTTP 401"))
  {
    var t := RequestWithRetry(cfg, script, 1);
    assert Attempt(script[0]) == Failure(ApiErr(ApiError("HTTP " + DecimalString(401), 401, None)));
    assert DecimalString(401) == "401";
    assert "HTTP " + "401" == "HTTP 401";
    assert t.result == Failure(ApiError("HTTP 401", 401, None));
  }

  /** The state `useApiMutation` exposes. */
  datatype MutationState = MutationState(loading: bool, error: Option<string>)

  datatype Mutated = Mutated(state: MutationState, returned: Json)

  /** `mutate(params)` from start to settling: it resolves with
      `response.data || null` on success and with `null` on failure, where
      it also records the `handleApiError` text; loading ends either way. */
  function Mutate(s: MutationState, outcome: Result<Option<Json>, Thrown>): (r: Mutated)
    ensures !r.state.loading
    ensures outcome.Success? ==> r.returned == OrNull(outcome.value) && r.state.error == None
    ensures outcome.Failure? ==> r.returned == JNull && r.state.error == Some(HandleApiError(outcome.error))
  {
    match outcome
    case Success(d) => Mutated(MutationState(false, None), OrNull(d))
    case Failure(e) => Mutated(MutationState(false, Some(HandleApiError(e))), JNull)
  }

  /** A mutation's result is truthy only when it succeeded, so a caller
      cannot tell a failure from a success whose data is falsy except by the
      error. */
  lemma MutationResultTruthyOnlyOnSuccess(s: MutationState, outcome: Result<Option<Json>, Thrown>)
    ensures Truthy(Mutate(s, outcome).returned) ==> outcome.Success?
    ensures outcome.Failure? ==> Mutate(s, outcome) == Mutate(s, Success(None)).(state := Mutate(s, outcome).state)
  {
  }
}

=== FILE: Json.dfy ===
/** JSON values as the modelled code sees them after `response.json()`,
    together with JavaScript's truthiness, which the code relies on through `||`. */
module Json {
  import opened Wrappers

  datatype Json =
    | JNull
    | JBool(b: bool)
    | JNum(n: real)
    | JStr(s: string)
    | JArr(items: seq<Json>)
    | JObj(fields: map<string, Json>)

  /** JavaScript truthiness of a parsed JSON value: `null`, `false`, `0` and
      `""` are falsy; every array and object is truthy, even an empty one. */
  predicate Truthy(v: Json) {
    match v
    case JNull => false
    case JBool(b) => b
    case JNum(n) => n != 0.0
    case JStr(s) => s != ""
    case JArr(_) => true
    case JObj(_) => true
  }

  /** Property access `v.key` on a parsed value that is not `null`, for the
      keys `message` and `code` of an error body: an object yields its own
      field, every other value yields `undefined` (None). Inherited and
      built-in properties such as `length` are not modelled. */
  function Field(v: Json, key: string): (r: Option<Json>)
    ensures r.Some? <==> v.JObj? && key in v.fields
    ensures r.Some? ==> r.value == v.fields[key]
  {
    if v.JObj? && key in v.fields then Some(v.fields[key]) else None
  }

  /** Truthiness of a possibly-undefined value; `undefined` is falsy. */
  predicate TruthyOpt(v: Option<Json>) {
    v.Some? && Truthy(v.value)
  }

  /** `value || null` on a possibly-undefined JSON value. */
  function OrNull(v: Option<Json>): (r: Json)
    ensures Truthy(r) <==> TruthyOpt(v)
    ensures TruthyOpt(v) ==> r == v.value
    ensures !TruthyOpt(v) ==> r == JNull
  {
    if TruthyOpt(v) then v.value else JNull
  }
}

=== FILE: ModelData.dfy ===
/** The reconciliation done by `useModelData`: classify raw model records
    from the API into the rows the rankings show, fall back to the static
    list when there is nothing to reconcile, and filter and cut the list. */
module ModelData {
  import opened Wrappers
  import opened Text
  import Json
  import ApiErrors
  import FetchHooks

  datatype Category =
    | Language
    | CodeModels
    | Vision
    | Multimodal
    | AudioSpeech
    | Embedding
    | DomainSpecific

  datatype Provider = OpenAI | Google | Anthropic | Meta | Mistral | Other

  /** A price as `parseFloat` produced it: a number, or NaN. */
  datatype ParsedPrice = Num(r: real) | NaN

  /** `model.pricing`: each field parsed, absent when missing or empty. */
  datatype Pricing = Pricing(prompt: Option<ParsedPrice>, completion: Option<ParsedPrice>)

  /** A model record of the `/models` payload, reduced to the fields read. */
  datatype RawModel = RawModel(name: string, id: string, contextLength: Option<int>, pricing: Option<Pricing>)

  /** A row of the rankings. */
  datatype ModelRow = ModelRow(
    name: string,
    organization: string,
    category: Category,
    provider: Provider,
    tokens: real,
    value: string,
    change: real,
    positionChange: int)

  /** One rule of a first-match-wins classifier: any keyword occurring in
      the text selects the outcome. */
  datatype Rule<L> = Rule(keywords: seq<string>, outcome: L)

  /** The outcome of the first rule, from index `i` on, with a keyword in
      `text`, or `default`. This is the reference reading of a chain of
      `if (x.includes(...) || ...) return ...` statements. */
  function FirstMatch<L>(rules: seq<Rule<L>>, i: nat, text: string, default: L): L
    decreases |rules| - i
  {
    if i >= |rules| then default
    else if ContainsAny(text, rules[i].keywords) then rules[i].outcome
    else FirstMatch(rules, i + 1, text, default)
  }

  /** First match wins: with no matching rule from `i` on the result is the
      default, and otherwise it is the outcome of the matching rule that
      has no matching rule before it. */
  lemma {:induction false} FirstMatchWins<L>(rules: seq<Rule<L>>, i: nat, text: string, default: L)
    ensures (forall k :: i <= k < |rules| ==> !ContainsAny(text, rules[k].keywords)) ==>
      FirstMatch(rules, i, text, default) == default
    ensures forall k :: (i <= k < |rules| && ContainsAny(text, rules[k].keywords)
      && forall j :: i <= j < k ==> !ContainsAny(text, rules[j].keywords)) ==>
      FirstMatch(rules, i, text, default) == rules[k].outcome
    decreases |rules| - i
  {
    if i < |rules| && !ContainsAny(text, rules[i].keywords) {
      FirstMatchWins(rules, i + 1, text, default);
    }
  }

  /** The category rules in the order `getCategoryFromModel` tries them. */
  const CategoryRules: seq<Rule<Category>> := [
    Rule(["coder", "code"], CodeModels),
    Rule(["vision", "image"], Vision),
    Rule(["multimodal", "image"], Multimodal),
    Rule(["audio", "speech"], AudioSpeech),
    Rule(["embedding"], Embedding),
    Rule(["research", "agent"], DomainSpecific)
  ]

  /** The provider rules in the order `getProviderFromModel` tries them. */
  const ProviderRules: seq<Rule<Provider>> := [
    Rule(["openai"], OpenAI),
    Rule(["google", "gemini"], Google),
    Rule(["anthropic", "claude"], Anthropic),
    Rule(["meta", "llama"], Meta),
    Rule(["mistral"], Mistral)
  ]

  /** `getCategoryFromModel`, on the model's name. */
  function CategoryOf(name: string): Category {
    CategoryOfLowered(Lower(name))
  }

  /** The chain of `getCategoryFromModel` on the already lower-cased name. */
  function CategoryOfLowered(n: string): Category {
    if Contains(n, "coder") || Contains(n, "code") then CodeModels
    else if Contains(n, "vision") || Contains(n, "image") then Vision
    else if Contains(n, "multimodal") || Contains(n, "image") then Multimodal
    else if Contains(n, "audio") || Contains(n, "speech") then AudioSpeech
    else if Contains(n, "embedding") then Embedding
    else if Contains(n, "research") || Contains(n, "agent") then DomainSpecific
    else Language
  }

  /** `getProviderFromModel`, on the model's id. */
  function ProviderOf(id: string): Provider {
    ProviderOfLowered(Lower(id))
  }

  /** The chain of `getProviderFromModel` on the already lower-cased id. */
  function ProviderOfLowered(n: string): Provider {
    if Contains(n, "openai") then OpenAI
    else if Contains(n, "google") || Contains(n, "gemini") then Google
    else if Contains(n, "anthropic") || Contains(n, "claude") then Anthropic
    else if Contains(n, "meta") || Contains(n, "llama") then Meta
    else if Contains(n, "mistral") then Mistral
    else Other
  }

  lemma ContainsAnyPair(s: string, a: string, b: string)
    ensures ContainsAny(s, [a, b]) <==> Contains(s, a) || Contains(s, b)
  {
    if Contains(s, a) { assert [a, b][0] == a; }
    if Contains(s, b) { assert [a, b][1] == b; }
  }

  lemma ContainsAnySingle(s: string, a: string)
    ensures ContainsAny(s, [a]) <==> Contains(s, a)
  {
    if Contains(s, a) { assert [a][0] == a; }
  }

  /** On a lower-cased name, the category chain is the first-match
      classifier over `CategoryRules` with `Language` as the default. */
  lemma CategoryIsFirstMatch(n: string)
    ensures CategoryOfLowered(n) == FirstMatch(CategoryRules, 0, n, Language)
  {
    ContainsAnyPair(n, "coder", "code");
    ContainsAnyPair(n, "vision", "image");
    ContainsAnyPair(n, "multimodal", "image");
    ContainsAnyPair(n, "audio", "speech");
    ContainsAnySingle(n, "embedding");
    ContainsAnyPair(n, "research", "agent");
    var r := CategoryRules;
    assert FirstMatch(r, 6, n, Language) == Language;
    assert FirstMatch(r, 5, n, Language) == if ContainsAny(n, r[5].keywords) then DomainSpecific else Language;
    assert FirstMatch(r, 4, n, Language) == if ContainsAny(n, r[4].keywords) then Embedding else FirstMatch(r, 5, n, Language);
    assert FirstMatch(r, 3, n, Language) == if ContainsAny(n, r[3].keywords) then AudioSpeech else FirstMatch(r, 4, n, Language);
    assert FirstMatch(r, 2, n, Language) == if ContainsAny(n, r[2].keywords) then Multimodal else FirstMatch(r, 3, n, Language);
    assert FirstMatch(r, 1, n, Language) == if ContainsAny(n, r[1].keywords) then Vision else FirstMatch(r, 2, n, Language);
    assert FirstMatch(r, 0, n, Language) == if ContainsAny(n, r[0].keywords) then CodeModels else FirstMatch(r, 1, n, Language);
  }

  /** On a lower-cased id, the provider chain is the first-match
      classifier over `ProviderRules` with `Other` as the default. */
  lemma ProviderIsFirstMatch(n: string)
    ensures ProviderOfLowered(n) == FirstMatch(ProviderRules, 0, n, Other)
  {
    ContainsAnySingle(n, "openai");
    ContainsAnyPair(n, "google", "gemini");
    ContainsAnyPair(n, "anthropic", "claude");
    ContainsAnyPair(n, "meta", "llama");
    ContainsAnySingle(n, "mistral");
    var r := ProviderRules;
    assert FirstMatch(r, 5, n, Other) == Other;
    assert FirstMatch(r, 4, n, Other) == if ContainsAny(n, r[4].keywords) then Mistral else Other;
    assert FirstMatch(r, 3, n, Other) == if ContainsAny(n, r[3].keywords) then Meta else FirstMatch(r, 4, n, Other);
    assert FirstMatch(r, 2, n, Other) == if ContainsAny(n, r[2].keywords) then Anthropic else FirstMatch(r, 3, n, Other);
    assert FirstMatch(r, 1, n, Other) == if ContainsAny(n, r[1].keywords) then Google else FirstMatch(r, 2, n, Other);
    assert FirstMatch(r, 0, n, Other) == if ContainsAny(n, r[0].keywords) then OpenAI else FirstMatch(r, 1, n, Other);
  }

  /** "coder" never decides anything on its own: every name containing it
      also contains "code". */
  lemma CoderImpliesCode(n: string)
    requires Contains(n, "coder")
    ensures Contains(n, "code")
  {
    assert "coder" == "code" + "r";
    ContainsPrefixOfOccurrence(n, "code", "r");
  }

  /** A name mentioning "vision" or "image" is a vision model unless it
      also mentions "code", in which case it is a code model; so a name
      such as "Vision-Pro-Image-1" never reaches the multimodal rule. */
  lemma VisionOrImageUnlessCode(name: string)
    requires Contains(Lower(name), "vision") || Contains(Lower(name), "image")
    ensures CategoryOf(name) == (if Contains(Lower(name), "code") then CodeModels else Vision)
  {
    if Contains(Lower(name), "coder") {
      CoderImpliesCode(Lower(name));
    }
  }

  /** `Multimodal` is chosen exactly when the name mentions "multimodal" and
      none of "code", "vision" and "image": the "image" test of its own rule
      can never fire. */
  lemma MultimodalExactly(name: string)
    ensures var n := Lower(name);
      CategoryOf(name) == Multimodal <==>
        Contains(n, "multimodal") && !Contains(n, "code") && !Contains(n, "vision") && !Contains(n, "image")
  {
    if Contains(Lower(name), "coder") {
      CoderImpliesCode(Lower(name));
    }
  }

  /** The category is decided on the lower-cased name: names equal up to
      ASCII case get the same category, and so on for providers and ids. */
  lemma ClassifiersIgnoreCase(a: string, b: string)
    requires Lower(a) == Lower(b)
    ensures CategoryOf(a) == CategoryOf(b)
    ensures ProviderOf(a) == ProviderOf(b)
  {
  }

  /** `parseTokensFromModel`: a step function of the context length, with a
      missing or zero length read as 0. */
  function TokensFor(contextLength: Option<int>): (r: real)
    ensures r == 5.0 || r == 10.0 || r == 15.0 || r == 20.0
  {
    var len := ValueOr(contextLength, 0);
    if len > 1000000 then 20.0
    else if len > 100000 then 15.0
    else if len > 10000 then 10.0
    else 5.0
  }

  /** The token estimate never decreases as the context grows. */
  lemma TokensMonotone(a: int, b: int)
    requires a <= b
    ensures TokensFor(Some(a)) <= TokensFor(Some(b))
  {
  }

  /** The thresholds are strict, and a missing length counts as zero. With
      `TokensMonotone` these fix the estimate for every length. */
  lemma TokensExamples()
    ensures TokensFor(Some(2000000)) == 20.0
    ensures TokensFor(Some(1000001)) == 20.0
    ensures TokensFor(Some(1000000)) == 15.0
    ensures TokensFor(Some(100001)) == 15.0
    ensures TokensFor(Some(100000)) == 10.0
    ensures TokensFor(Some(10001)) == 10.0
    ensures TokensFor(Some(10000)) == 5.0
    ensures TokensFor(Some(5000)) == 5.0
    ensures TokensFor(None) == 5.0 && TokensFor(Some(0)) == 5.0
  {
  }

  /** `model.pricing?.x || '0'` parsed: a missing price reads as 0. */
  function PriceOf(p: Option<ParsedPrice>): ParsedPrice {
    ValueOr(p, Num(0.0))
  }

  /** `(promptPrice + completionPrice) / 2`, NaN when either price is NaN. */
  function AveragePrice(pricing: Option<Pricing>): (r: ParsedPrice)
    ensures pricing.None? ==> r == Num(0.0)
    ensures r.NaN? <==> pricing.Some? && (pricing.value.prompt == Some(NaN) || pricing.value.completion == Some(NaN))
    ensures pricing.Some? && r.Num? ==>
      var p := pricing.value;
      r.r * 2.0 == (if p.prompt.Some? then p.prompt.value.r else 0.0)
                 + (if p.completion.Some? then p.completion.value.r else 0.0)
  {
    match pricing
    case None => Num(0.0)
    case Some(p) =>
      match (PriceOf(p.prompt), PriceOf(p.completion))
      case (Num(a), Num(b)) => Num((a + b) / 2.0)
      case _ => NaN
  }

  const Bucket1B := "$1B+"
  const Bucket500M := "$500M+"
  const Bucket100M := "$100M+"
  const Bucket10M := "$10M+"

  /** The rank of a value bucket, from 0 for the lowest. */
  function BucketRank(v: string): int {
    if v == Bucket1B then 3 else if v == Bucket500M then 2 else if v == Bucket100M then 1 else 0
  }

  /** The bucket `getModelValue` picks for an average price. Every
      comparison with NaN is false, so NaN lands in the lowest bucket. */
  function ValueFor(avg: ParsedPrice): (r: string)
    ensures r in {Bucket1B, Bucket500M, Bucket100M, Bucket10M}
    ensures avg.NaN? ==> r == Bucket10M
  {
    if avg.Num? && avg.r > 0.01 then Bucket1B
    else if avg.Num? && avg.r > 0.001 then Bucket500M
    else if avg.Num? && avg.r > 0.0001 then Bucket100M
    else Bucket10M
  }

  /** 1 when `a` is above the threshold `t`, otherwise 0. */
  function Exceeds(a: real, t: real): int {
    if a > t then 1 else 0
  }

  /** The bucket of a numeric average ranks as high as the number of the
      thresholds 0.01, 0.001 and 0.0001 that the average exceeds. */
  lemma ValueCountsThresholds(a: real)
    ensures BucketRank(ValueFor(Num(a))) == Exceeds(a, 0.01) + Exceeds(a, 0.001) + Exceeds(a, 0.0001)
  {
  }

  /** `getModelValue`. */
  function ValueOf(pricing: Option<Pricing>): (r: string)
    ensures pricing.None? ==> r == Bucket10M
  {
    ValueFor(AveragePrice(pricing))
  }

  /** A higher average price never gets a lower bucket. */
  lemma ValueMonotone(a: real, b: real)
    requires a <= b
    ensures BucketRank(ValueFor(Num(a))) <= BucketRank(ValueFor(Num(b)))
  {
  }

  /** `model.id.split('/')[0] || 'Unknown'`. */
  function OrganizationOf(id: string): (r: string)
    ensures r != "" && '/' !in r
    ensures r == "Unknown" <==> FirstSegment(id, '/') == "" || FirstSegment(id, '/') == "Unknown"
    ensures r != "Unknown" ==> |r| <= |id| && id[..|r|] == r && (|r| == |id| || id[|r|] == '/')
  {
    var seg := FirstSegment(id, '/');
    if seg == "" then "Unknown" else seg
  }

  /** An id of the form `org/rest` with a non-empty, slash-free `org` yields
      `org` as the organisation. */
  lemma OrganizationOfQualifiedId(org: string, rest: string)
    requires org != "" && '/' !in org
    ensures OrganizationOf(org + "/" + rest) == org
  {
    var id := org + "/" + rest;
    assert id[..|org|] == org;
    assert id[|org|] == '/';
    FirstSegmentUnique(id, '/', org);
  }

  /** A draw of `Math.random()`, in [0, 1). */
  type Unit = r: real | 0.0 <= r < 1.0 witness 0.0

  /** The two draws one record consumes: one for `change`, one for `positionChange`. */
  datatype Draw = Draw(forChange: Unit, forPosition: Unit)

  /** The row built for one API record. */
  function Reconcile(m: RawModel, d: Draw): (r: ModelRow)
    ensures r.name == m.name && r.category == CategoryOf(m.name) && r.provider == ProviderOf(m.id)
    ensures r.organization == OrganizationOf(m.id)
    ensures r.tokens == TokensFor(m.contextLength) && r.value == ValueOf(m.pricing)
    ensures -10.0 <= r.change < 10.0
    ensures -3 <= r.positionChange <= 2
  {
    ModelRow(
      m.name,
      OrganizationOf(m.id),
      CategoryOf(m.name),
      ProviderOf(m.id),
      TokensFor(m.contextLength),
      ValueOf(m.pricing),
      d.forChange * 20.0 - 10.0,
      (d.forPosition * 6.0).Floor - 3)
  }

  /** The fields of a row that do not come from `Math.random()`. */
  datatype Derived = Derived(name: string, organization: string, category: Category, provider: Provider, tokens: real, value: string)

  function DerivedOf(r: ModelRow): Derived {
    Derived(r.name, r.organization, r.category, r.provider, r.tokens, r.value)
  }

  /** What the models hook holds: `null`, an array of records, or some other
      JSON value. */
  datatype ApiModels = NoData | Records(records: seq<RawModel>) | NotAnArray

  /** `modelsData`: the API records reconciled in order when the hook holds
      an array and is not loading (an empty array included), otherwise the
      static list unchanged. Record `i` consumes `random(i)`. */
  function ModelsData(api: ApiModels, loading: bool, staticModels: seq<ModelRow>, random: nat -> Draw): (r: seq<ModelRow>)
    ensures api.Records? && !loading ==>
      |r| == |api.records|
      && forall i :: 0 <= i < |r| ==> r[i] == Reconcile(api.records[i], random(i))
    ensures !(api.Records? && !loading) ==> r == staticModels
  {
    if api.Records? && !loading then
      seq(|api.records|, i requires 0 <= i < |api.records| => Reconcile(api.records[i], random(i)))
    else staticModels
  }

  /** Reconciling the same records twice gives the same rows apart from the
      random fields, whatever the random draws. */
  lemma ModelsDataDeterministic(api: ApiModels, loading: bool, staticModels: seq<ModelRow>,
                                random1: nat -> Draw, random2: nat -> Draw)
    ensures var a := ModelsData(api, loading, staticModels, random1);
      var b := ModelsData(api, loading, staticModels, random2);
      |a| == |b| && forall i :: 0 <= i < |a| ==> DerivedOf(a[i]) == DerivedOf(b[i])
  {
  }

  /** An empty array from the API is truthy, so it replaces the static list
      with an empty one instead of falling back. */
  lemma EmptyArrayReplacesStatic(staticModels: seq<ModelRow>, random: nat -> Draw)
    ensures ModelsData(Records([]), false, staticModels, random) == []
    ensures ModelsData(NoData, false, staticModels, random) == staticModels
    ensures ModelsData(Records([]), true, staticModels, random) == staticModels
  {
  }

  datatype TimeRange = Year | Month | Week

  /** `chartData`: the series for the selected range, the yearly one by default. */
  function ChartData<S>(range: TimeRange, weekly: S, monthly: S, yearly: S): (r: S)
    ensures range == Week ==> r == weekly
    ensures range == Month ==> r == monthly
    ensures range == Year ==> r == yearly
  {
    match range
    case Week => weekly
    case Month => monthly
    case Year => yearly
  }

  /** Distinct series give distinct charts: the series shown identifies the
      selected range. */
  lemma ChartDataIdentifiesRange<S>(a: TimeRange, b: TimeRange, weekly: S, monthly: S, yearly: S)
    requires weekly != monthly && monthly != yearly && weekly != yearly
    ensures ChartData(a, weekly, monthly, yearly) == ChartData(b, weekly, monthly, yearly) <==> a == b
  {
  }

  datatype CategoryFilter = All | Only(category: Category)

  predicate Selected(f: CategoryFilter, r: ModelRow) {
    f.All? || r.category == f.category
  }

  /** `models.filter(m => m.category === selected)`, or the list itself for 'All'. */
  function FilterCategory(rows: seq<ModelRow>, f: CategoryFilter): (r: seq<ModelRow>)
    ensures |r| <= |rows|
    ensures forall x :: x in r <==> x in rows && Selected(f, x)
    ensures f.All? ==> r == rows
  {
    if |rows| == 0 then []
    else if Selected(f, rows[0]) then [rows[0]] + FilterCategory(rows[1..], f)
    else FilterCategory(rows[1..], f)
  }

  /** The filter keeps a single row exactly when it is selected. */
  lemma FilterCategorySingleton(x: ModelRow, f: CategoryFilter)
    ensures FilterCategory([x], f) == if Selected(f, x) then [x] else []
  {
    assert [x][1..] == [];
  }

  /** The filter keeps order and multiplicity: it distributes over
      concatenation and keeps a single row exactly when it is selected. */
  lemma {:induction false} FilterCategoryAppend(a: seq<ModelRow>, b: seq<ModelRow>, f: CategoryFilter)
    ensures FilterCategory(a + b, f) == FilterCategory(a, f) + FilterCategory(b, f)
    ensures forall x :: FilterCategory([x], f) == if Selected(f, x) then [x] else []
    decreases |a|
  {
    if |a| == 0 {
      assert a + b == b;
    } else {
      assert (a + b)[0] == a[0];
      assert (a + b)[1..] == a[1..] + b;
      FilterCategoryAppend(a[1..], b, f);
    }
    forall x
      ensures FilterCategory([x], f) == if Selected(f, x) then [x] else []
    {
      FilterCategorySingleton(x, f);
    }
  }

  /** `slice(0, n)`. */
  function Take<T>(s: seq<T>, n: nat): (r: seq<T>)
    ensures |r| == if |s| <= n then |s| else n
    ensures r == s[..|r|]
  {
    if |s| <= n then s else s[..n]
  }

  const TopCount := 20

  /** `filteredModels`: on the server the reconciled list, in the browser
      the list after the time-range adjustment (taken as given); then the
      category filter and the first 20. */
  function FilteredModels(isClient: bool, range: TimeRange, f: CategoryFilter, models: seq<ModelRow>,
                          adjust: (seq<ModelRow>, TimeRange) -> seq<ModelRow>): (r: seq<ModelRow>)
    ensures |r| <= TopCount
    ensures forall x :: x in r ==> Selected(f, x)
    ensures var base := if isClient then adjust(models, range) else models;
      forall x :: x in r ==> x in base
    ensures var base := if isClient then adjust(models, range) else models;
      |r| <= |FilterCategory(base, f)| && r == FilterCategory(base, f)[..|r|] && (|r| < TopCount ==> r == FilterCategory(base, f))
  {
    var base := if isClient then adjust(models, range) else models;
    Take(FilterCategory(base, f), TopCount)
  }

  /** `loading: modelsLoading || providersLoading`. */
  function CombinedLoading(modelsLoading: bool, providersLoading: bool): (r: bool)
    ensures r <==> modelsLoading || providersLoading
  {
    modelsLoading || providersLoading
  }

  /** `error: modelsError || providersError`: the models error unless it is
      null or empty, otherwise the providers error. */
  function CombinedError(modelsError: Option<string>, providersError: Option<string>): (r: Option<string>)
    ensures modelsError.Some? && modelsError.value != "" ==> r == modelsError
    ensures !(modelsError.Some? && modelsError.value != "") ==> r == providersError
  {
    if modelsError.Some? && modelsError.value != "" then modelsError else providersError
  }

  /** The page's flags over the `useModels` and `useModelProviders` hooks:
      starting either fetch makes the page load; once both fetches have
      settled it no longer loads; and it shows no error exactly when the
      models call succeeded (or failed with an empty text) and the providers
      call succeeded. A models failure with a non-empty text wins over a
      providers failure. */
  lemma HookFlags(models: FetchHooks.FetchState, providers: FetchHooks.FetchState,
                  mo: Result<Option<Json.Json>, ApiErrors.Thrown>, po: Result<Option<Json.Json>, ApiErrors.Thrown>)
    ensures CombinedLoading(FetchHooks.BeginFetch(models).loading, providers.loading)
    ensures CombinedLoading(models.loading, FetchHooks.BeginFetch(providers).loading)
    ensures !CombinedLoading(FetchHooks.FetchData(models, mo).loading, FetchHooks.FetchData(providers, po).loading)
    ensures var e := CombinedError(FetchHooks.FetchData(models, mo).error, FetchHooks.FetchData(providers, po).error);
      var modelsQuiet := mo.Success? || ApiErrors.HandleApiError(mo.error) == "";
      (e == None <==> modelsQuiet && po.Success?)
      && (!modelsQuiet ==> e == Some(ApiErrors.HandleApiError(mo.error)))
      && (modelsQuiet && po.Failure? ==> e == Some(ApiErrors.HandleApiError(po.error)))
  {
  }
}

=== FILE: Retry.dfy ===
/** The retrying fetch of `ApiClient`: `requestWithRetry`, `shouldRetry`
    and `delay`. The network is a scripted transport: the fetch made on
    attempt `k` settles with `script[k - 1]`. Waits are recorded, not
    slept. */
module Retry {
  import opened Wrappers
  import opened Json
  import opened Text
  import opened ApiErrors

  /** The `api` block of the configuration: attempt bound, base delay in
      milliseconds, and the per-fetch timeout in milliseconds. */
  datatype Config = Config(retryAttempts: int, retryDelay: int, timeout: int)

  /** The shipped configuration: 3 attempts, 1000 ms base delay, 30000 ms timeout. */
  const Default := Config(3, 1000, 30000)

  /** A response body as `response.json()` settles: parsed, or rejected with a
      SyntaxError message. */
  datatype Body = Parsed(value: Json) | Unparseable(syntaxError: string)

  /** How one `fetch` settles: an HTTP response, the timeout's abort, or a
      rejection before any response (a TypeError such as "Failed to fetch"). */
  datatype FetchOutcome =
    | Respond(status: int, body: Body)
    | Abort
    | NetworkFailure(message: string)

  /** `response.ok`. */
  predicate IsOk(status: int) {
    200 <= status <= 299
  }

  /** The DOMException message an aborted fetch rejects with. */
  const AbortMessage := "The user aborted a request."
  /** The TypeError message of reading `.message` from a `null` error body, in
      V8's wording; other JavaScript engines word it differently. */
  const NullBodyMessage := "Cannot read properties of null (reading 'message')"

  /** `errorData`: the parsed error body, or `{}` when it does not parse. */
  function ErrorData(body: Body): Json {
    match body
    case Parsed(v) => v
    case Unparseable(_) => JObj(map[])
  }

  /** `errorData.message || \`HTTP ${status}\``, for a message field that is a
      string; any other field value falls back to the status text. */
  function ResponseMessage(message: Option<Json>, status: int): string {
    if message.Some? && message.value.JStr? && message.value.s != "" then message.value.s
    else "HTTP " + DecimalString(status)
  }

  /** The error a non-ok response raises. A body that parses to `null` makes
      the property read itself throw a TypeError, which is not an `ApiError`. */
  function ErrorFromResponse(status: int, body: Body): (t: Thrown)
    ensures ErrorData(body) == JNull <==> t.JsError?
    ensures t.JsError? ==> t.name == "TypeError"
    ensures ErrorData(body) != JNull ==>
      t.ApiErr? && t.err.status == status && t.err.code == Field(ErrorData(body), "code")
    ensures var m := Field(ErrorData(body), "message");
      t.ApiErr? && m.Some? && m.value.JStr? && m.value.s != "" ==> t.err.message == m.value.s
    ensures t.ApiErr? && !TruthyOpt(Field(ErrorData(body), "message")) ==>
      t.err.message == "HTTP " + DecimalString(status)
  {
    var errorData := ErrorData(body);
    if errorData == JNull then JsError("TypeError", NullBodyMessage)
    else ApiErr(ApiError(ResponseMessage(Field(errorData, "message"), status), status, Field(errorData, "code")))
  }

  /** When the error body has no usable message, the status can be read back
      from the message text. */
  lemma FallbackMessageNamesStatus(status: int, body: Body)
    requires ErrorData(body) != JNull && Field(ErrorData(body), "message") == None
    ensures var m := ErrorFromResponse(status, body).err.message;
      |m| > 5 && m[..5] == "HTTP " && ParseInt(m[5..]) == status
  {
    var m := ErrorFromResponse(status, body).err.message;
    DecimalRoundTrip(status);
    assert m[5..] == DecimalString(status);
  }

  /** One attempt of the `try` block: fetch, turn a non-ok response into an
      error, otherwise parse the body as the data. */
  function Attempt(o: FetchOutcome): (r: Result<Json, Thrown>)
    ensures r.Success? <==> o.Respond? && IsOk(o.status) && o.body.Parsed?
    ensures r.Success? ==> r.value == o.body.value
    ensures o.Abort? ==> r == Failure(JsError("AbortError", AbortMessage))
    ensures o.NetworkFailure? ==> r == Failure(JsError("TypeError", o.message))
    ensures o.Respond? && IsOk(o.status) && o.body.Unparseable? ==>
      r == Failure(JsError("SyntaxError", o.body.syntaxError))
    ensures o.Respond? && !IsOk(o.status) ==> r == Failure(ErrorFromResponse(o.status, o.body))
  {
    match o
    case Respond(status, body) =>
      if !IsOk(status) then Failure(ErrorFromResponse(status, body))
      else (match body
            case Parsed(v) => Success(v)
            case Unparseable(m) => Failure(JsError("SyntaxError", m)))
    case Abort => Failure(JsError("AbortError", AbortMessage))
    case NetworkFailure(m) => Failure(JsError("TypeError", m))
  }

  /** `shouldRetry`: server errors and rate limiting among `ApiError`s, and
      every failure that is not an `ApiError`. */
  predicate ShouldRetry(t: Thrown) {
    match t
    case ApiErr(e) => e.status >= 500 || e.status == 429
    case _ => true
  }

  /** A client error other than 429 is never retried; everything that is not
      an `ApiError` always is, so an HTTP 408 response is final while an
      aborted fetch is retried. */
  lemma ShouldRetryClasses(t: Thrown)
    ensures t.ApiErr? && 400 <= t.err.status < 500 && t.err.status != 429 ==> !ShouldRetry(t)
    ensures t.ApiErr? && (t.err.status >= 500 || t.err.status == 429) ==> ShouldRetry(t)
    ensures !t.ApiErr? ==> ShouldRetry(t)
  {
  }

  /** The fetch outcomes whose failure `shouldRetry` accepts: a network
      rejection, an abort, a 2xx body that does not parse, and a non-2xx
      response that is a server error, is rate limited, or has a `null`
      error body. */
  predicate RetryableOutcome(o: FetchOutcome) {
    match o
    case NetworkFailure(_) => true
    case Abort => true
    case Respond(status, body) =>
      if IsOk(status) then body.Unparseable?
      else ErrorData(body) == JNull || status >= 500 || status == 429
  }

  /** Below the bound, attempt `k` is followed by a retry exactly when its
      fetch settled with a retryable outcome. */
  lemma RetriedExactly(cfg: Config, script: seq<FetchOutcome>, k: int)
    requires 1 <= k <= |script| && k < cfg.retryAttempts
    ensures Retried(cfg, script, k) <==> RetryableOutcome(script[k - 1])
  {
  }

  /** The error thrown once no retry follows: an `ApiError` unchanged, an
      abort as a 408 timeout, any other `Error` as status 0 with its message,
      and a non-`Error` as status 0 "Network error". */
  function FinalError(t: Thrown): (e: ApiError)
    ensures t.ApiErr? ==> e == t.err
    ensures !t.ApiErr? ==> e.code == None && (e.status == 408 <==> t.JsError? && t.name == "AbortError")
    ensures t.JsError? && t.name == "AbortError" ==> e == ApiError("Request timeout", 408, None)
    ensures t.JsError? && t.name != "AbortError" ==> e == ApiError(t.message, 0, None)
    ensures t.NonError? ==> e == ApiError("Network error", 0, None)
  {
    match t
    case ApiErr(e) => e
    case JsError(name, m) =>
      if name == "AbortError" then ApiError("Request timeout", 408, None) else ApiError(m, 0, None)
    case NonError => ApiError("Network error", 0, None)
  }

  /** What one logical request did: its result, the attempt indices whose
      fetches it made, and the waits it requested between them. */
  datatype Trace = Trace(result: Result<Json, ApiError>, attempts: seq<int>, waits: seq<int>)

  function Max(a: int, b: int): int {
    if a >= b then a else b
  }

  /** Attempt `k` failed with an error `shouldRetry` accepts while `k` was
      still below the bound, so a retry followed it. */
  predicate Retried(cfg: Config, script: seq<FetchOutcome>, k: int)
    requires 1 <= k <= |script|
  {
    var r := Attempt(script[k - 1]);
    r.Failure? && ShouldRetry(r.error) && k < cfg.retryAttempts
  }

  /** Attempt `k` ended the request with `result`: a success returns its data;
      a failure is final when the bound is reached or `shouldRetry` rejects
      it, and is mapped by `FinalError`. */
  predicate Settles(cfg: Config, script: seq<FetchOutcome>, k: int, result: Result<Json, ApiError>)
    requires 1 <= k <= |script|
  {
    match Attempt(script[k - 1])
    case Success(v) => result == Success(v)
    case Failure(e) => (k >= cfg.retryAttempts || !ShouldRetry(e)) && result == Failure(FinalError(e))
  }

  /** `requestWithRetry(url, options, attempt)`. The attempts made are
      consecutive from `attempt`, never beyond the bound; every attempt but
      the last failed retryably, the last one settles the result, and the wait
      before each retry is `retryDelay` times the index of the failed attempt. */
  function RequestWithRetry(cfg: Config, script: seq<FetchOutcome>, attempt: int): (t: Trace)
    requires 1 <= attempt
    requires attempt <= |script| && cfg.retryAttempts <= |script|
    ensures 1 <= |t.attempts|
    ensures forall k :: 0 <= k < |t.attempts| ==> t.attempts[k] == attempt + k
    ensures attempt + |t.attempts| - 1 <= Max(attempt, cfg.retryAttempts)
    ensures |t.waits| == |t.attempts| - 1
    ensures forall k :: 0 <= k < |t.waits| ==> t.waits[k] == cfg.retryDelay * t.attempts[k]
    ensures forall k :: attempt <= k < attempt + |t.attempts| - 1 ==> Retried(cfg, script, k)
    ensures Settles(cfg, script, attempt + |t.attempts| - 1, t.result)
    decreases cfg.retryAttempts - attempt
  {
    match Attempt(script[attempt - 1])
    case Success(v) => Trace(Success(v), [attempt], [])
    case Failure(e) =>
      if attempt < cfg.retryAttempts && ShouldRetry(e) then
        var rest := RequestWithRetry(cfg, script, attempt + 1);
        Trace(rest.result, [attempt] + rest.attempts, [cfg.retryDelay * attempt] + rest.waits)
      else
        Trace(Failure(FinalError(e)), [attempt], [])
  }

  /** One step of `requestWithRetry`: how the trace from `attempt` is made
      of that attempt and, after a retry, the trace from `attempt + 1`. */
  lemma RetryStep(cfg: Config, script: seq<FetchOutcome>, attempt: int)
    requires 1 <= attempt <= |script| && cfg.retryAttempts <= |script|
    ensures var r := Attempt(script[attempt - 1]);
      var t := RequestWithRetry(cfg, script, attempt);
      if r.Success? then t == Trace(Success(r.value), [attempt], [])
      else if attempt < cfg.retryAttempts && ShouldRetry(r.error) then
        var next := RequestWithRetry(cfg, script, attempt + 1);
        t == Trace(next.result, [attempt] + next.attempts, [cfg.retryDelay * attempt] + next.waits)
      else t == Trace(Failure(FinalError(r.error)), [attempt], [])
  {
  }

  /** A retry moves one attempt and its wait from the remaining trace to
      the part already done. */
  lemma ShiftAttempt(whole: Trace, rest: Trace, next: Trace, attempts: seq<int>, waits: seq<int>, attempt: int, wait: int)
    requires whole == Trace(rest.result, attempts + rest.attempts, waits + rest.waits)
    requires rest == Trace(next.result, [attempt] + next.attempts, [wait] + next.waits)
    ensures whole == Trace(next.result, (attempts + [attempt]) + next.attempts, (waits + [wait]) + next.waits)
  {
    assert attempts + ([attempt] + next.attempts) == (attempts + [attempt]) + next.attempts;
    assert waits + ([wait] + next.waits) == (waits + [wait]) + next.waits;
  }

  /** A settling attempt completes the trace. */
  lemma LastAttempt(whole: Trace, rest: Trace, attempts: seq<int>, waits: seq<int>, attempt: int)
    requires whole == Trace(rest.result, attempts + rest.attempts, waits + rest.waits)
    requires rest.attempts == [attempt] && rest.waits == []
    ensures whole == Trace(rest.result, attempts + [attempt], waits)
  {
    assert waits + [] == waits;
  }

  /** The retries as an explicit bounded loop with an attempt counter; it
      makes the same fetches, waits and result as the recursive
      `requestWithRetry` started at attempt 1. */
  method RetryLoop(cfg: Config, script: seq<FetchOutcome>)
    returns (result: Result<Json, ApiError>, attempts: seq<int>, waits: seq<int>)
    requires 1 <= |script| && cfg.retryAttempts <= |script|
    ensures Trace(result, attempts, waits) == RequestWithRetry(cfg, script, 1)
  {
    var attempt := 1;
    attempts := [];
    waits := [];
    ghost var whole := RequestWithRetry(cfg, script, 1);
    ghost var rest := whole;
    while true
      invariant 1 <= attempt <= |script|
      invariant attempt == 1 || attempt <= cfg.retryAttempts
      invariant rest == RequestWithRetry(cfg, script, attempt)
      invariant whole == Trace(rest.result, attempts + rest.attempts, waits + rest.waits)
      decreases cfg.retryAttempts - attempt
    {
      var r := Attempt(script[attempt - 1]);
      RetryStep(cfg, script, attempt);
      if r.Success? {
        result := Success(r.value);
        LastAttempt(whole, rest, attempts, waits, attempt);
        attempts := attempts + [attempt];
        return;
      }
      if attempt < cfg.retryAttempts && ShouldRetry(r.error) {
        var wait := cfg.retryDelay * attempt;
        ghost var next := RequestWithRetry(cfg, script, attempt + 1);
        ShiftAttempt(whole, rest, next, attempts, waits, attempt, wait);
        attempts := attempts + [attempt];
        waits := waits + [wait];
        attempt := attempt + 1;
        rest := next;
      } else {
        result := Failure(FinalError(r.error));
        LastAttempt(whole, rest, attempts, waits, attempt);
        attempts := attempts + [attempt];
        return;
      }
    }
  }

  /** Sum of a sequence of waits. */
  function Sum(s: seq<int>): int {
    if |s| == 0 then 0 else s[0] + Sum(s[1..])
  }

  /** Twice the sum `a + (a + 1) + ... + (a + m - 1)`. */
  function SeriesTwice(m: int, a: int): int {
    2 * m * a + m * (m - 1)
  }

  lemma SeriesStep(m: int, a: int)
    ensures SeriesTwice(m, a) == 2 * a + SeriesTwice(m - 1, a + 1)
  {
    assert m * (m - 1) == (m - 1) * (m - 2) + 2 * (m - 1);
    assert 2 * m * a == 2 * (m - 1) * a + 2 * a;
    assert 2 * (m - 1) * (a + 1) == 2 * (m - 1) * a + 2 * (m - 1);
  }

  /** Waits `d * a, d * (a + 1), ...` of length `m` add up to
      `d * (m * a + m * (m - 1) / 2)`, stated without the division. */
  lemma {:induction false} LinearWaitsSum(w: seq<int>, d: int, a: int)
    requires forall k :: 0 <= k < |w| ==> w[k] == d * (a + k)
    ensures 2 * Sum(w) == d * SeriesTwice(|w|, a)
    decreases |w|
  {
    if |w| > 0 {
      var m := |w|;
      forall k | 0 <= k < |w[1..]| ensures w[1..][k] == d * ((a + 1) + k) {
        assert w[1..][k] == w[k + 1];
      }
      LinearWaitsSum(w[1..], d, a + 1);
      SeriesStep(m, a);
      assert 2 * Sum(w) == 2 * (d * a) + d * SeriesTwice(m - 1, a + 1);
      assert d * SeriesTwice(m, a) == d * (2 * a) + d * SeriesTwice(m - 1, a + 1);
    }
  }

  /** Over a request that made `n` fetches, the waits total
      `retryDelay * n * (n - 1) / 2`. */
  lemma TotalDelay(cfg: Config, script: seq<FetchOutcome>)
    requires 1 <= |script| && cfg.retryAttempts <= |script|
    ensures var t := RequestWithRetry(cfg, script, 1);
      var n := |t.attempts|;
      2 * Sum(t.waits) == cfg.retryDelay * n * (n - 1)
  {
    var t := RequestWithRetry(cfg, script, 1);
    var n := |t.attempts|;
    LinearWaitsSum(t.waits, cfg.retryDelay, 1);
    assert SeriesTwice(n - 1, 1) == n * (n - 1);
    assert cfg.retryDelay * (n * (n - 1)) == cfg.retryDelay * n * (n - 1);
  }

  /** With the first `n` fetches failing retryably, the request makes
      `n + 1` fetches and returns the data of fetch `n + 1` when `n` is below
      the bound, and otherwise gives up after exactly `retryAttempts` fetches
      with the last one's error. */
  lemma {:induction false} ConsecutiveFailures(cfg: Config, script: seq<FetchOutcome>, n: nat)
    requires 1 <= cfg.retryAttempts <= |script|
    requires n < |script|
    requires forall k :: 0 <= k < n ==> Attempt(script[k]).Failure? && ShouldRetry(Attempt(script[k]).error)
    requires n < cfg.retryAttempts ==> Attempt(script[n]).Success?
    ensures var t := RequestWithRetry(cfg, script, 1);
      if n < cfg.retryAttempts then
        |t.attempts| == n + 1 && t.result == Success(Attempt(script[n]).value)
      else
        |t.attempts| == cfg.retryAttempts
        && t.result == Failure(FinalError(Attempt(script[cfg.retryAttempts - 1]).error))
  {
    var t := RequestWithRetry(cfg, script, 1);
    var last := |t.attempts|;
    assert Settles(cfg, script, last, t.result);
    assert last <= n ==> Attempt(script[last - 1]).Failure? && ShouldRetry(Attempt(script[last - 1]).error);
    assert last > n + 1 ==> Retried(cfg, script, n + 1);
  }

  /** With the shipped configuration a request makes at most three fetches
      and waits 1000 ms and then 2000 ms between them. */
  lemma DefaultSchedule(script: seq<FetchOutcome>)
    requires 3 <= |script|
    ensures var t := RequestWithRetry(Default, script, 1);
      |t.attempts| <= 3 && t.attempts == [1, 2, 3][..|t.attempts|]
      && t.waits == [1000, 2000][..|t.attempts| - 1]
  {
    var t := RequestWithRetry(Default, script, 1);
    assert t.attempts == [1, 2, 3][..|t.attempts|];
  }

  /** A client error other than 429 on the first fetch ends the request at
      once: one fetch, no wait, and the same `ApiError`. */
  lemma ClientErrorSingleFetch(cfg: Config, script: seq<FetchOutcome>, e: ApiError)
    requires 1 <= |script| && cfg.retryAttempts <= |script|
    requires Attempt(script[0]) == Failure(ApiErr(e))
    requires 400 <= e.status < 500 && e.status != 429
    ensures RequestWithRetry(cfg, script, 1) == Trace(Failure(e), [1], [])
  {
  }

  /** An HTTP 401 response with an error body that is not `null` surfaces as
      an authentication error after exactly one fetch. */
  lemma UnauthorizedIsFinal(cfg: Config, script: seq<FetchOutcome>, body: Body)
    requires 1 <= |script| && cfg.retryAttempts <= |script|
    requires script[0] == Respond(401, body) && ErrorData(body) != JNull
    ensures var t := RequestWithRetry(cfg, script, 1);
      |t.attempts| == 1 && t.waits == [] && t.result.Failure? && IsAuthError(ApiErr(t.result.error))
  {
  }

  /** Three timeouts in a row with the shipped configuration end in
      `ApiError('Request timeout', 408)` after waits of 1000 and 2000 ms. */
  lemma TimeoutsExhaustRetries(script: seq<FetchOutcome>)
    requires |script| == 3 && script[0] == script[1] == script[2] == Abort
    ensures RequestWithRetry(Default, script, 1)
      == Trace(Failure(ApiError("Request timeout", 408, None)), [1, 2, 3], [1000, 2000])
  {
  }

  /** A request surfaces an authentication error exactly when its last fetch
      got an HTTP 401 response with an error body that is not `null`; aborts,
      network failures and unparseable success bodies never do. */
  lemma SurfacedAuthError(cfg: Config, script: seq<FetchOutcome>)
    requires 1 <= |script| && cfg.retryAttempts <= |script|
    ensures var t := RequestWithRetry(cfg, script, 1);
      var o := script[|t.attempts| - 1];
      t.result.Failure? ==>
        (IsAuthError(ApiErr(t.result.error)) <==> o.Respond? && o.status == 401 && ErrorData(o.body) != JNull)
  {
    var t := RequestWithRetry(cfg, script, 1);
    assert Settles(cfg, script, |t.attempts|, t.result);
  }

  /** The outcomes whose failure carries no HTTP status of its own: a
      rejection before any response, a 2xx response whose body does not
      parse, and a non-2xx response whose error body parses to `null`; plus
      a response whose status is itself 0. */
  predicate RejectedWithoutStatus(o: FetchOutcome) {
    match o
    case NetworkFailure(_) => true
    case Abort => false
    case Respond(status, body) =>
      if IsOk(status) then body.Unparseable? else ErrorData(body) == JNull || status == 0
  }

  /** A request surfaces a network error (status 0) exactly when its last
      fetch was rejected before any response, or was a 2xx response whose
      body did not parse, or was a non-2xx response whose error body parsed
      to `null` or whose status was 0. Timeouts surface as 408, not here. */
  lemma SurfacedNetworkError(cfg: Config, script: seq<FetchOutcome>)
    requires 1 <= |script| && cfg.retryAttempts <= |script|
    ensures var t := RequestWithRetry(cfg, script, 1);
      var o := script[|t.attempts| - 1];
      t.result.Failure? ==> (IsNetworkError(ApiErr(t.result.error)) <==> RejectedWithoutStatus(o))
  {
    var t := RequestWithRetry(cfg, script, 1);
    assert Settles(cfg, script, |t.attempts|, t.result);
  }
}

=== FILE: Text.dfy ===
/** String helpers standing in for the JavaScript string methods the modelled
    code calls: `toLowerCase`, `includes`, `split(sep)[0]` and number-to-string
    conversion in template literals. */
module Text {

  /** Lower-cases one character; only the ASCII letters A-Z change. */
  function LowerChar(c: char): (r: char)
    ensures 'A' <= c <= 'Z' ==> r as int == c as int + 32
    ensures !('A' <= c <= 'Z') ==> r == c
  {
    if 'A' <= c <= 'Z' then (c as int + 32) as char else c
  }

  /** `s.toLowerCase()`, restricted to ASCII letters. */
  function Lower(s: string): (r: string)
    ensures |r| == |s|
    ensures forall i :: 0 <= i < |s| ==> r[i] == LowerChar(s[i])
  {
    seq(|s|, i requires 0 <= i < |s| => LowerChar(s[i]))
  }

  /** `sub` occurs in `s` starting at index `i`. */
  predicate OccursAt(s: string, sub: string, i: int) {
    0 <= i && i + |sub| <= |s| && s[i..i + |sub|] == sub
  }

  /** `s.includes(sub)`, decided left to right. */
  predicate Contains(s: string, sub: string)
    decreases |s|
  {
    if |sub| > |s| then false
    else s[..|sub|] == sub || Contains(s[1..], sub)
  }

  /** `Contains` holds exactly when `sub` occurs at some index of `s`. */
  lemma {:induction false} ContainsIffOccurs(s: string, sub: string)
    ensures Contains(s, sub) <==> exists i :: OccursAt(s, sub, i)
    decreases |s|
  {
    if |sub| > |s| {
      forall i ensures !OccursAt(s, sub, i) { }
    } else if s[..|sub|] == sub {
      assert OccursAt(s, sub, 0);
    } else {
      ContainsIffOccurs(s[1..], sub);
      if Contains(s, sub) {
        var i :| OccursAt(s[1..], sub, i);
        assert s[i + 1..i + 1 + |sub|] == s[1..][i..i + |sub|];
        assert OccursAt(s, sub, i + 1);
      } else {
        assert s[0..|sub|] == s[..|sub|];
        forall i | OccursAt(s, sub, i) ensures i >= 1 && OccursAt(s[1..], sub, i - 1) {
          if i >= 1 {
            assert s[1..][i - 1..i - 1 + |sub|] == s[i..i + |sub|];
          }
        }
      }
    }
  }

  /** Whenever `a + b` occurs in `s`, so does `a`: a longer keyword is
      redundant beside any of its prefixes. */
  lemma ContainsPrefixOfOccurrence(s: string, a: string, b: string)
    requires Contains(s, a + b)
    ensures Contains(s, a)
  {
    ContainsIffOccurs(s, a + b);
    var i :| OccursAt(s, a + b, i);
    assert s[i..i + |a|] == s[i..i + |a + b|][..|a|];
    assert OccursAt(s, a, i);
    ContainsIffOccurs(s, a);
  }

  /** Some keyword of `keywords` occurs in `s`: the `a.includes(x) || a.includes(y)`
      chains of the classifiers. */
  predicate ContainsAny(s: string, keywords: seq<string>) {
    exists k :: 0 <= k < |keywords| && Contains(s, keywords[k])
  }

  /** `s.split(sep)[0]`: the text before the first `sep`, or all of `s` when
      `sep` does not occur. */
  function FirstSegment(s: string, sep: char): (r: string)
    ensures |r| <= |s| && r == s[..|r|]
    ensures sep !in r
    ensures |r| == |s| || s[|r|] == sep
  {
    if |s| == 0 || s[0] == sep then ""
    else [s[0]] + FirstSegment(s[1..], sep)
  }

  /** The first segment is the only prefix without `sep` that ends at a `sep`
      or at the end of the text. */
  lemma FirstSegmentUnique(s: string, sep: char, p: string)
    requires |p| <= |s| && p == s[..|p|] && sep !in p
    requires |p| == |s| || s[|p|] == sep
    ensures p == FirstSegment(s, sep)
  {
    var r := FirstSegment(s, sep);
    assert forall k :: 0 <= k < |p| ==> p[k] == s[k] != sep;
    assert forall k :: 0 <= k < |r| ==> r[k] == s[k] != sep;
  }

  /** The character for a decimal digit. */
  function DigitChar(d: int): (c: char)
    requires 0 <= d < 10
    ensures '0' <= c <= '9'
    ensures c as int - '0' as int == d
  {
    (d + '0' as int) as char
  }

  /** Decimal digits of a natural number, without leading zeros. */
  function NatDigits(n: nat): (r: string)
    ensures |r| >= 1
    ensures forall i :: 0 <= i < |r| ==> '0' <= r[i] <= '9'
    ensures |r| > 1 ==> r[0] != '0'
    decreases n
  {
    if n < 10 then [DigitChar(n)] else NatDigits(n / 10) + [DigitChar(n % 10)]
  }

  /** An integer as a template literal renders it (`${n}`). */
  function DecimalString(n: int): string {
    if n < 0 then "-" + NatDigits(-n) else NatDigits(n)
  }

  /** The value of a string of decimal digits. */
  function DigitsValue(s: string): int
    requires forall i :: 0 <= i < |s| ==> '0' <= s[i] <= '9'
  {
    if |s| == 0 then 0
    else DigitsValue(s[..|s| - 1]) * 10 + (s[|s| - 1] as int - '0' as int)
  }

  /** Reads back an optionally signed decimal integer. */
  function ParseInt(s: string): int
    requires |s| >= 1
    requires forall i :: 1 <= i < |s| ==> '0' <= s[i] <= '9'
    requires s[0] == '-' || '0' <= s[0] <= '9'
  {
    if s[0] == '-' then -DigitsValue(s[1..]) else DigitsValue(s)
  }

  /** Reading the digits of `n` back yields `n`. */
  lemma {:induction false} NatDigitsValue(n: nat)
    ensures DigitsValue(NatDigits(n)) == n
    decreases n
  {
    if n >= 10 {
      NatDigitsValue(n / 10);
      var d := NatDigits(n);
      assert d[..|d| - 1] == NatDigits(n / 10);
    }
  }

  /** Rendering an integer and reading it back is the identity, so the
      rendering is injective. */
  lemma DecimalRoundTrip(n: int)
    ensures var t := DecimalString(n);
      |t| >= 1 && (t[0] == '-' || '0' <= t[0] <= '9')
      && (forall i :: 1 <= i < |t| ==> '0' <= t[i] <= '9')
      && ParseInt(t) == n
  {
    if n < 0 {
      NatDigitsValue(-n);
      assert DecimalString(n)[1..] == NatDigits(-n);
    } else {
      NatDigitsValue(n);
    }
  }

  /** Distinct integers render to distinct strings. */
  lemma DecimalInjective(m: int, n: int)
    requires DecimalString(m) == DecimalString(n)
    ensures m == n
  {
    DecimalRoundTrip(m);
    DecimalRoundTrip(n);
  }
}

=== FILE: Wrappers.dfy ===
/** Optional values and success/failure results, used wherever the modelled
    code has `null`/`undefined` or a rejected promise. */
module Wrappers {

  /** A value that may be absent (`null` or `undefined` in the modelled code). */
  datatype Option<T> = None | Some(value: T)

  /** `x ?? fallback`: the value when present, otherwise the fallback. */
  function ValueOr<T>(x: Option<T>, fallback: T): (r: T)
    ensures x.Some? ==> r == x.value
    ensures x.None? ==> r == fallback
  {
    if x.Some? then x.value else fallback
  }

  /** The settled state of a promise: resolved with a value or rejected with an error. */
  datatype Result<T, E> = Success(value: T) | Failure(error: E)
}
